=== FILE: README.md ===
# UI platform backend: token lifecycle, validators and registration flow

A Dafny model of the core of the `ui-platform-backend-service` Go service:

- **the JWT service** (`pkg/jwt/service.go`, module `TokenService`). It issues an
  access/refresh pair. The refresh token is bound to its access token through the
  hex SHA-256 of that token, and to a random 128-bit nonce kept in an optional
  nonce store. The service validates a token against an expected type and rotates
  a refresh token into a new pair;
- **the older free-function JWT code** (`pkg/jwt/jwt.go`, module `LegacyJwt`). It
  has fixed lifetimes and a different issuer, its nonce persistence is stubbed out,
  and it uses the expiry rule of dgrijalva/jwt-go;
- **input validation** of users and registrations (`internal/entity/user.go`,
  module `UserEntity`), including the anchored e-mail regular expression. Projects
  are validated in `internal/entity/project.go`, module `ProjectEntity`;
- **the registration-code flow** (`internal/services/user.go`, module `UserService`):
  e-mail verification with a send lock, a six-digit code and a queued mail, then
  registration against the stored code;
- **configuration loading** (`internal/config/config.go`, module `AppConfig`) as a
  pure function of the environment.

Shared pieces:

- `Hex` covers Base16, section 8 of RFC 4648, lower case.
- `Decimal` covers decimal digit strings, `%06d` and `strconv.Atoi`.
- `Utf8` covers Go's `len` of a string, in UTF-8 bytes.
- `NonceStorage` is the nonce store as an exact-match map.
- `Jws` holds the claim set, the signing primitives and the two libraries' parse
  rules for the `exp` claim (section 4.1.4 of RFC 7519).

The cryptography is not computed. `Jws.Primitives` carries HS256 signing,
signature-checking decoding and SHA-256 as function values. `Jws.Sound` states
the only facts the token logic relies on:

- a token that `sign` produced decodes under the same key to the same claims;
- a digest is 32 bytes.

Every token property is stated under `Sound`. `Jws.SoundIsSatisfiable` shows
the assumption is consistent.

Values the source obtains from the outside world are parameters:

- the wall clock is `now`, in whole seconds;
- `crypto/rand` output is `entropy` (None when the read fails);
- `rand.Intn(900000)` is `draw`;
- the bcrypt hash is `passwordHash`;
- the database's new id is `newId`;
- backend failures of the registration flow are the set `faults` of failing steps;
- nonce-store failures are the store's `readable` and `writable` flags, which fail
  `Validate` and `Save` independently;
- the environment is a `map<string, string>`.

Go's `(value, error)` results become `Result`, `Option` or result records.
Failed token operations return empty strings, as the source does.

Where the code falls short of what its own comments or names promise, the model
follows the code:

- **One-time refresh tokens only with a store.** The comments at
  `pkg/jwt/service.go:39` and `pkg/jwt/service.go:142` promise that a refresh
  token cannot be used twice. The code enforces this only when a nonce store is
  present; a service built without one skips the nonce check entirely.
  `TokenService.NoStoreAllowsReplay` states the resulting replay window.
- **Two issuers.** The two JWT files use different issuer strings, and
  `LegacyJwt.Issuer` differs from `TokenService.Issuer`.
- **Same-second rotation.** Replay rejection holds only when the rotated refresh
  token differs from the old one. A rotation within the second that gives both the
  same expiry re-signs identical claims, and HS256 then yields the identical token.
  `TokenService.RotationRenewsRefreshToken` states the condition.
- **Project messages.** They say "less than 100" and "less than 1000", while 100
  and 4000 bytes are accepted.

## Model

| member | source | states |
|---|---|---|
| Hex.Encode | pkg/jwt/service.go:66 | `hex.EncodeToString`: two lower-case hex digits per byte |
| Hex.Decode | pkg/jwt/service.go:101 | succeeds exactly on even-length lower-case hex strings, yielding half as many bytes |
| Hex.DecodeEncode | pkg/jwt/service.go:100-101 | round trip: decoding an encoding gives back the bytes |
| Hex.EncodeDecode | pkg/jwt/service.go:100-101 | round trip the other way: a decodable string is the encoding of what it decodes to |
| Hex.EncodeInjective | pkg/jwt/service.go:176-177 | distinct digests have distinct hex spellings, so comparing `TokenId` strings compares digests |
| Hex.DigitValue | pkg/jwt/service.go:66 | a character has a nibble value exactly when it is a lower-case hex digit, and `Digit` inverts it |
| Decimal.Digits | internal/services/user.go:129 | decimal spelling of a natural number: at least one digit, no leading zero |
| Decimal.ValueOfDigits | internal/services/user.go:129 | the spelling reads back as the number |
| Decimal.ZeroPad | internal/services/user.go:129 | `%0*d`: left-padded to at least the width, all digits, same value |
| Decimal.DigitsLength | internal/services/user.go:128-129 | numbers from 10^k to 10^(k+1)-1 have exactly k+1 digits |
| Decimal.Atoi | internal/config/config.go:141 | `strconv.Atoi`: an optional sign followed by at least one digit, only digits after it, and a value within 64-bit `int`; a bare sign is rejected |
| Decimal.AtoiItoa | internal/config/config.go:141-145 | every 64-bit integer's canonical spelling is read back exactly |
| Decimal.AtoiOfDigits | internal/config/config.go:141-145 | conversely, every non-empty digit string, leading zeros included, is read as its value exactly when it fits in 64 bits, and fails otherwise |
| Decimal.AtoiSigned | internal/config/config.go:141-145 | after a `+` the digits keep their value and after a `-` they are negated; the result is accepted exactly when it fits in 64 bits |
| Decimal.AtoiNonCanonical | internal/config/config.go:141 | "+5", "007" and "-0" read as 5, 7 and 0, as in Go |
| Utf8.ByteLength | internal/entity/user.go:74 | Go `len` counts UTF-8 bytes: between 1 and 4 per character |
| Utf8.AsciiByteLength | internal/entity/user.go:74 | for ASCII text, bytes equal characters |
| Utf8.RepeatByteLength | internal/entity/project.go:32-41 | n copies of one character take n times its width |
| Jws.SoundIsSatisfiable | pkg/jwt/service.go:83-84 | the signing assumptions are consistent with some primitives that do sign |
| Jws.ParseStrict | pkg/jwt/service.go:122-127 | golang-jwt v5 `ParseWithClaims`, also at service.go:179: accepts exactly the tokens whose signature decodes under the key and whose `exp` is still ahead (`now < exp`), returning the decoded claims |
| Jws.ParseLegacy | pkg/jwt/jwt.go:79-85 | dgrijalva/jwt-go v3 `ParseWithClaims`, also at jwt.go:123: accepts exactly the tokens whose signature decodes under the key and whose `exp` is 0 or not yet passed (`now <= exp`), returning the decoded claims |
| Jws.LegacyParseAcceptsMore | pkg/jwt/jwt.go:79-85 | whatever v5 accepts v3 accepts with the same claims; v3 additionally accepts exactly in the second `exp` names and, for `exp` 0, at any time from the epoch |
| Jws.SignedTokenParses | pkg/jwt/service.go:122-127 | a signed token parses to its claims while unexpired (`now < exp` for golang-jwt v5; `exp == 0` or `now <= exp` for dgrijalva/jwt-go) |
| Jws.HashHex | pkg/jwt/service.go:100-101 | the access-token hash is 64 lower-case hex characters that decode to the SHA-256 digest |
| Jws.HashHexInjective | pkg/jwt/service.go:191 | equal hex hashes mean equal SHA-256 digests |
| Jws.GenerateNonce | pkg/jwt/service.go:61-67 | fails exactly when the random read fails; otherwise 32 lower-case hex characters that decode to the 16 random bytes |
| NonceStorage.Save | pkg/jwt/service.go:40-43 | fails exactly when the store does not accept writes; afterwards the nonce validates exactly the given token, and every other nonce's answers are unchanged |
| NonceStorage.Validate | pkg/jwt/service.go:40-43 | true exactly when the nonce is bound to this very token; an error exactly when the store does not answer reads |
| TokenService.GenerateJWT | pkg/jwt/service.go:71-85 | fails only with a signing error; a token produced decodes to the claims, with `exp = now + ttl` and the fixed issuer |
| TokenService.GenerateTokenPair | pkg/jwt/service.go:89-117 | each error arises exactly when its step is the first to fail (entropy, then signing, then `Save`); succeeds exactly when entropy is available, both tokens sign and there is no store or it accepts writes, so without a store the pair is returned once signed; all or nothing on error; the access token carries the user and type "access"; the refresh token carries the hash of that access token and the fresh nonce; with a store, the nonce now validates exactly the new refresh token, every other nonce answers as before, and the store still answers reads and writes as it did |
| TokenService.ValidateJWT | pkg/jwt/service.go:121-139 | succeeds exactly when the token is signed under the key, unexpired and of the expected type; returns the user id it carries; the parse error is reported exactly when parsing fails, any other failure is a type error |
| TokenService.ValidateRefreshToken | pkg/jwt/service.go:175-205 | success means signed, unexpired, of type "refresh" and bound to the presented access token's hash, plus the nonce check when a store exists; a binding mismatch fails before the store is consulted; without a store the nonce is never checked; a live, bound token that still fails is reported as a failed nonce check; the parse error is reported exactly when parsing fails |
| TokenService.RefreshTokens | pkg/jwt/service.go:143-171 | validation errors pass through unchanged; succeeds exactly when validation passes, both new tokens sign and `Save` (if there is a store) succeeds; a `Save` failing after `Validate` succeeded fails the rotation; no tokens and an untouched store on any error; a new pair for the same user with the same nonce, the new refresh token bound to the NEW access token; the nonce is re-bound to the new refresh token and the store still accepts reads and writes, so the pair can be rotated again |
| TokenService.SaveFailureFailsRotation | pkg/jwt/service.go:166-168 | a rotation whose `Save` fails after validation succeeded returns no tokens, the storage error and the store unchanged |
| TokenService.IssuedAccessTokenValidates | pkg/jwt/service.go:89-139 | an issued access token validates as "access" and yields its user id until it expires |
| TokenService.IssuedTokensAreTypeIsolated | pkg/jwt/service.go:134-136 | an issued access token never validates as "refresh", nor the refresh token as "access" |
| TokenService.IssuedPairRotates | pkg/jwt/service.go:175-205 | an issued pair is accepted for rotation until the refresh token expires, yielding the claims it was issued with, as long as the store (if any) answers reads |
| TokenService.OtherAccessTokenRejected | pkg/jwt/service.go:176-193 | an issued refresh token is accepted with another access token only if that token has the same SHA-256 digest |
| TokenService.RotatedPairValidates | pkg/jwt/service.go:143-171 | after a rotation the new access token validates for the same user, and the new pair rotates again |
| TokenService.ReplayRejected | pkg/jwt/service.go:195-202 | with a store, once a pair was rotated into a different refresh token, the old pair fails validation and rotation at any later time |
| TokenService.RotationRenewsRefreshToken | pkg/jwt/service.go:157 | the new refresh token differs from the old one whenever their expiry seconds differ |
| TokenService.NoStoreAllowsReplay | pkg/jwt/service.go:195-197 | without a store the old pair keeps validating after a rotation, until it expires |
| TokenService.IssueRotateReplay | pkg/jwt/service.go:89-205 | with a signer that never fails and a working store: issuing succeeds; rotating in a different second before the refresh token expires succeeds; the new access token validates for the user; both tokens changed; and replaying the original pair fails |
| LegacyJwt.SaveNonce | pkg/jwt/jwt.go:146-149 | the stub never fails |
| LegacyJwt.ValidateNonce | pkg/jwt/jwt.go:151-154 | the stub accepts every nonce |
| LegacyJwt.GenerateJWT | pkg/jwt/jwt.go:35-49 | fails only with a signing error; a token produced decodes to the claims with `exp = now + duration` and issuer "ui_platform_auth_service" |
| LegacyJwt.GenerateTokenPair | pkg/jwt/jwt.go:51-76 | succeeds exactly when entropy and both signings do; a failed random read is reported as the entropy error and only then, otherwise the error is a signing error; tokens expire 86400 and 604800 seconds after issue; the refresh token is bound to the access token's hash and carries the nonce |
| LegacyJwt.ValidateJWT | pkg/jwt/jwt.go:78-95 | succeeds exactly when signed, live under `exp == 0` or `now <= exp`, and of the expected type; returns its user id; the parse error is reported exactly when parsing fails |
| LegacyJwt.ValidateRefreshToken | pkg/jwt/jwt.go:119-143 | succeeds exactly when signed, live, of type "refresh" and bound to the presented access token; the nonce check can never fail; the parse error is reported exactly when parsing fails |
| LegacyJwt.RefreshTokens | pkg/jwt/jwt.go:97-117 | validation errors pass through with no tokens; succeeds exactly when validation passes and both new tokens sign, and otherwise fails with the signing error; the new refresh token is bound to the hash of the OLD access token |
| LegacyJwt.IssuedAccessTokenValidates | pkg/jwt/jwt.go:51-95 | an issued access token validates as "access" through the last second of its 24 hours, and never as "refresh" |
| LegacyJwt.RefreshTokenReusable | pkg/jwt/jwt.go:119-143 | a refresh token that validated once validates identically at every later time before it expires, so rotation can repeat |
| LegacyJwt.RotationBindsOldAccessToken | pkg/jwt/jwt.go:108-111 | the new refresh token validates with the old access token |
| LegacyJwt.RotatedPairRejected | pkg/jwt/jwt.go:108-111 | the pair a caller receives (new refresh, new access) is rejected whenever the two access tokens' digests differ |
| UserEntity.MatchEmailDecidesPattern | internal/entity/user.go:21-22 | the executable matcher (first `@`, last `.`) accepts exactly the language of the anchored pattern |
| UserEntity.FirstIndexOf | internal/entity/user.go:21 | the first occurrence, or none at all |
| UserEntity.LastIndexOf | internal/entity/user.go:21 | the last occurrence, or none at all |
| UserEntity.ValidateEmail | internal/entity/user.go:16-26 | an empty e-mail is "email is required"; a non-empty one passes exactly when it matches the pattern, and otherwise is "invalid email format" |
| UserEntity.UppercaseEmailRejected | internal/entity/user.go:21-24 | any upper-case letter makes the format invalid |
| UserEntity.ValidateLogin | internal/entity/user.go:28-37 | e-mail errors first; then it passes exactly when the password is non-empty, and an empty password is "password is required" |
| UserEntity.ValidateRegister | internal/entity/user.go:62-81 | each error occurs exactly when its check is the first to fail; passes exactly on a matching e-mail, a password of at least 8 bytes and a non-empty code |
| UserEntity.EightAsciiPasswordAccepted | internal/entity/user.go:74-76 | an 8-byte password passes |
| UserEntity.SevenAsciiPasswordRejected | internal/entity/user.go:74-76 | a 7-byte password is too short |
| UserEntity.FourTwoBytePasswordAccepted | internal/entity/user.go:74-76 | four two-byte characters pass, since length is counted in bytes |
| ProjectEntity.Validate | internal/entity/project.go:28-44 | passes exactly when the name is 1 to 100 bytes and the description 1 to 4000 bytes; name errors come first; each error occurs exactly when its check is the first to fail |
| ProjectEntity.ValidateIgnoresOtherFields | internal/entity/project.go:28-44 | id, status and timestamps play no part |
| ProjectEntity.NameLengthBoundary | internal/entity/project.go:32-34 | a 100-byte name passes, a 101-byte name fails |
| ProjectEntity.DescriptionLengthBoundary | internal/entity/project.go:39-41 | a 4000-byte description passes, a 4001-byte one fails |
| UserService.FormatCode | internal/services/user.go:129 | `%06d`: all digits, at least 6 long, and the same value; exactly 6 digits, no leading zero, in the 100000..999999 range |
| UserService.GenerateCode | internal/services/user.go:126-130 | a six-digit code without a leading zero, worth `draw + 100000` |
| UserService.Register | internal/services/user.go:33-71 | "invalid code" exactly when the stored code cannot be read, is missing or differs; past that, each error (hashing, registration check, already registered, create) arises exactly when its step is the first to fail, and success exactly when none fails and the e-mail is free; a registered e-mail never reaches Create; success adds exactly one account with the new id and hash and changes nothing else; failure changes nothing |
| UserService.EmailVerification | internal/services/user.go:87-124 | registered e-mails are refused with no change; a held lock stops the flow; otherwise the first failing step's error (lock, code, publish) is returned and the flow succeeds when none fails; on success the state is exactly the old one plus this e-mail's lock, its code and one queued mail; a failing step keeps exactly the effects of the steps before it; accounts are never touched |
| UserService.VerifyThenRegister | internal/services/user.go:33-124 | the code that verification stores lets registration create the account; afterwards both operations refuse the e-mail |
| AppConfig.RedisDb | internal/config/config.go:135-145 | empty or unset means 0; otherwise the `Atoi` value, or 0 when that fails; always within 64-bit range |
| AppConfig.Setting | internal/config/config.go:42-133 | every string setting is non-empty |
| AppConfig.DefaultsNonEmpty | internal/config/config.go:42-133 | every default is non-empty |
| AppConfig.ConfigOf | internal/config/config.go:147-170 | the configuration's fifteen string fields are the settings in source order |
| AppConfig.GetConfig | internal/config/config.go:40-171 | never fails; each string field is its variable when non-empty and its listed default otherwise; the Redis database follows `RedisDb` |
| AppConfig.GetConfigPopulated | internal/config/config.go:40-171 | every string setting is populated, whatever the environment |
| AppConfig.EmptyEnvironmentDefaults | internal/config/config.go:42-52 | an empty environment gives port "8080", secret "secret", SSL mode "disable" and Redis database 0 |
| AppConfig.RedisDbParsing | internal/config/config.go:141-145 | a canonical 64-bit integer is taken as is; "abc", a bare "-" and out-of-range numbers fall back to 0 |

## Left out

- HTTP handlers, router and middleware. This includes the handlers' unchecked
  `accessToken[7:]` slice and the missing "Bearer " check; the model starts at the
  token strings.
- `Login`, `HashPassword` and `CheckPassword`. bcrypt is not modelled; its output
  is the parameter `passwordHash`.
- The internals of HMAC-SHA256, SHA-256, JSON and base64url. `Jws.Sound` assumes
  only signing round trips and 32-byte digests. Unforgeability, tamper resistance
  and collision resistance are not assumed, so binding statements are up to equal
  SHA-256 digests.
- The `nbf` and `iat` claims. golang-jwt v5 rejects a token whose `nbf` lies in the
  future, and dgrijalva/jwt-go v3 also rejects a future `iat`. `Jws.Claims` has
  neither field, so the `ValidateJWT` and `ValidateRefreshToken` contracts hold for
  tokens without them. Tokens carrying them are outside the model, and neither
  JWT file ever issues one.
- Tokens without an `exp` claim. Issued tokens always carry one, and decoded claims
  always have an integer `expiresAt`.
- Time is one `now` per operation in whole seconds. Go reads the clock separately
  for each token and keeps sub-second precision before `NumericDate` truncation.
- The `!ok || !token.Valid` branches after `ParseWithClaims`. Both libraries
  already return an error whenever the token is invalid, so these branches cannot
  be reached.
- Concurrency. Validate-then-Save on the nonce store is not atomic, and two
  simultaneous rotations can both succeed.
- Redis expiry of codes (15 minutes) and send locks (5 minutes). The store keeps
  them until overwritten.
- The duplicate-key error text that `Create` maps to "email is already registered".
  Every create failure is `CreateFailed`.
- The Postgres, Redis and RabbitMQ drivers, the message's JSON encoding, and
  logging.
- `fmt.Println` of missing variables in `GetConfig`.
- Project and screen services and storages, and `EntityName`. They are
  persistence plumbing outside this core.

## Findings

| source | as written | input that shows it | evidently intended | confidence | as-written member | corrected member |
|---|---|---|---|---|---|---|
| pkg/jwt/jwt.go:108-111 | `RefreshTokens` hashes the `accessToken` it was given and binds the new refresh token to it, while returning a freshly minted access token | any successful rotation whose new access token has a different SHA-256 digest from the presented one | bind the new refresh token to the hash of `newAccessToken`, so that the returned pair can be rotated | high; not executed | LegacyJwt.RotatedPairRejected | TokenService.RotatedPairValidates |

=== FILE: app_config.dfy ===
/**
 * `GetConfig` of `internal/config/config.go` as a pure function of the
 * process environment: every setting is its variable when that is non-empty
 * and a fixed default otherwise; `REDIS_DB` goes through `strconv.Atoi`
 * with 0 as the fallback.
 */
module AppConfig {
  import opened Wrappers
  import Decimal

  datatype RabbitMQ = RabbitMQ(host: string, port: string, user: string, password: string)

  datatype Postgres = Postgres(dbHost: string, dbPort: string, dbUser: string, dbName: string,
                               dbPass: string, dbSslMode: string)

  datatype Redis = Redis(host: string, port: string, password: string, db: int)

  datatype Config = Config(appPort: string, appSecretKey: string, rabbitMQ: RabbitMQ,
                           postgres: Postgres, redis: Redis)

  /** The string settings: environment variable and default, in source order. */
  const Defaults: seq<(string, string)> := [
    ("APP_PORT", "8080"),
    ("APP_SECRET_KEY", "secret"),
    ("RABBITMQ_HOST", "localhost"),
    ("RABBITMQ_PORT", "5672"),
    ("RABBITMQ_USER", "user"),
    ("RABBITMQ_PASSWORD", "password"),
    ("DB_HOST", "localhost"),
    ("DB_PORT", "5432"),
    ("DB_USER", "postgres"),
    ("DB_NAME", "postgres"),
    ("DB_PASS", "password"),
    ("DBSSL_MODE", "disable"),
    ("REDIS_HOST", "localhost"),
    ("REDIS_PORT", "6379"),
    ("REDIS_PASSWORD", "password")
  ]

  /** `os.Getenv`: an unset variable reads as "". */
  function Getenv(env: map<string, string>, key: string): (v: string)
    ensures key !in env ==> v == ""
  {
    if key in env then env[key] else ""
  }

  function OrDefault(env: map<string, string>, key: string, default: string): (v: string)
    ensures Getenv(env, key) != "" ==> v == env[key]
    ensures Getenv(env, key) == "" ==> v == default
  {
    var v := Getenv(env, key);
    if v == "" then default else v
  }

  /** The configuration's string settings, in the order of `Defaults`. */
  function Fields(c: Config): seq<string> {
    [c.appPort, c.appSecretKey,
     c.rabbitMQ.host, c.rabbitMQ.port, c.rabbitMQ.user, c.rabbitMQ.password,
     c.postgres.dbHost, c.postgres.dbPort, c.postgres.dbUser, c.postgres.dbName, c.postgres.dbPass,
     c.postgres.dbSslMode,
     c.redis.host, c.redis.port, c.redis.password]
  }

  /** The `REDIS_DB` setting: "0" when empty or unset, then `Atoi`, 0 when that fails. */
  function RedisDb(env: map<string, string>): (db: int)
    ensures Getenv(env, "REDIS_DB") == "" ==> db == 0
    ensures Decimal.Atoi(Getenv(env, "REDIS_DB")).None? ==> db == 0
    ensures Decimal.Atoi(Getenv(env, "REDIS_DB")).Some? ==> db == Decimal.Atoi(Getenv(env, "REDIS_DB")).value
    ensures Decimal.MinInt64 <= db <= Decimal.MaxInt64
  {
    var raw := OrDefault(env, "REDIS_DB", "0");
    assert Decimal.Atoi("0") == Some(0) by { Decimal.AtoiItoa(0); }
    match Decimal.Atoi(raw)
    case None => 0
    case Some(n) => n
  }

  /** The i-th string setting: its variable, or its default when that is empty. */
  function Setting(env: map<string, string>, i: nat): (v: string)
    requires i < |Defaults|
    ensures v != ""
  {
    DefaultsNonEmpty();
    OrDefault(env, Defaults[i].0, Defaults[i].1)
  }

  lemma DefaultsNonEmpty()
    ensures forall i :: 0 <= i < |Defaults| ==> Defaults[i].1 != ""
  {
  }

  /** Assembles a `Config` from the fifteen string settings, in `Fields` order. */
  function ConfigOf(s: seq<string>, db: int): (c: Config)
    requires |s| == |Defaults|
    ensures Fields(c) == s && c.redis.db == db
  {
    Config(s[0], s[1], RabbitMQ(s[2], s[3], s[4], s[5]),
      Postgres(s[6], s[7], s[8], s[9], s[10], s[11]),
      Redis(s[12], s[13], s[14], db))
  }

  /** `GetConfig`: never fails; each string setting follows `Defaults`. */
  function GetConfig(env: map<string, string>): (c: Config)
    ensures |Fields(c)| == |Defaults|
    ensures forall i :: 0 <= i < |Defaults| ==>
      Fields(c)[i] == if Getenv(env, Defaults[i].0) != "" then Getenv(env, Defaults[i].0) else Defaults[i].1
    ensures c.redis.db == RedisDb(env)
  {
    var s := seq(|Defaults|, i requires 0 <= i < |Defaults| => Setting(env, i));
    assert forall i :: 0 <= i < |Defaults| ==>
      s[i] == if Getenv(env, Defaults[i].0) != "" then Getenv(env, Defaults[i].0) else Defaults[i].1 by {
      forall i | 0 <= i < |Defaults|
        ensures s[i] == if Getenv(env, Defaults[i].0) != "" then Getenv(env, Defaults[i].0) else Defaults[i].1
      {
        var key := Defaults[i].0;
        assert s[i] == OrDefault(env, key, Defaults[i].1);
      }
    }
    ConfigOf(s, RedisDb(env))
  }

  /** Every string setting is populated, whatever the environment holds. */
  lemma GetConfigPopulated(env: map<string, string>)
    ensures forall i :: 0 <= i < |Defaults| ==> Fields(GetConfig(env))[i] != ""
  {
    DefaultsNonEmpty();
  }

  /** With an empty environment every setting is its default: among them the
      port "8080", the secret "secret" and Redis database 0. */
  lemma EmptyEnvironmentDefaults()
    ensures var c := GetConfig(map[]);
      && c.appPort == "8080" && c.appSecretKey == "secret"
      && c.postgres.dbSslMode == "disable" && c.redis.db == 0
  {
    var c := GetConfig(map[]);
    assert Fields(c)[0] == Defaults[0].1;
    assert Fields(c)[1] == Defaults[1].1;
    assert Fields(c)[11] == Defaults[11].1;
  }

  /** `REDIS_DB` is read with `Atoi`: a canonical integer is taken as is;
      text, a bare sign and out-of-range numbers fall back to 0. */
  lemma RedisDbParsing(env: map<string, string>, n: int, big: nat)
    requires Decimal.MinInt64 <= n <= Decimal.MaxInt64
    requires big > Decimal.MaxInt64
    ensures RedisDb(env["REDIS_DB" := Decimal.Itoa(n)]) == n
    ensures RedisDb(env["REDIS_DB" := "abc"]) == 0
    ensures RedisDb(env["REDIS_DB" := "-"]) == 0
    ensures RedisDb(env["REDIS_DB" := Decimal.Digits(big)]) == 0
  {
    Decimal.AtoiItoa(n);
    assert !Decimal.IsDigit("abc"[0]);
    Decimal.ValueOfDigits(big);
  }
}

=== FILE: decimal.dfy ===
/**
 * Decimal text for non-negative integers: the `%d` / `%06d` verbs of Go's
 * `fmt` and the parser behind `strconv.Atoi`, on a 64-bit `int`.
 */
module Decimal {
  import opened Wrappers

  const MinInt64: int := -0x8000_0000_0000_0000
  const MaxInt64: int := 0x7fff_ffff_ffff_ffff

  predicate IsDigit(c: char) {
    '0' <= c <= '9'
  }

  predicate AllDigits(s: string) {
    forall i :: 0 <= i < |s| ==> IsDigit(s[i])
  }

  function DigitChar(d: nat): (c: char)
    requires d < 10
    ensures IsDigit(c)
  {
    ('0' as int + d) as char
  }

  function Pow10(k: nat): (p: nat)
    ensures p >= 1
  {
    if k == 0 then 1 else 10 * Pow10(k - 1)
  }

  /** The shortest decimal spelling of `n`: `fmt`'s `%d` for a non-negative value. */
  function Digits(n: nat): (s: string)
    ensures 1 <= |s|
    ensures AllDigits(s)
    ensures |s| > 1 ==> s[0] != '0'
    decreases n
  {
    if n < 10 then [DigitChar(n)] else Digits(n / 10) + [DigitChar(n % 10)]
  }

  /** The number a string of digits denotes (leading zeros allowed). */
  function Value(s: string): nat
    requires AllDigits(s)
  {
    if |s| == 0 then 0 else 10 * Value(s[..|s| - 1]) + (s[|s| - 1] as int - '0' as int)
  }

  lemma {:induction false} ValueOfDigits(n: nat)
    ensures Value(Digits(n)) == n
    decreases n
  {
    if n >= 10 {
      var s := Digits(n);
      ValueOfDigits(n / 10);
      assert s[..|s| - 1] == Digits(n / 10);
    }
  }

  lemma {:induction false} ValueConcat(a: string, b: string)
    requires AllDigits(a) && AllDigits(b)
    ensures AllDigits(a + b)
    ensures Value(a + b) == Value(a) * Pow10(|b|) + Value(b)
    decreases |b|
  {
    var ab := a + b;
    assert AllDigits(ab) by {
      forall i | 0 <= i < |ab| ensures IsDigit(ab[i]) {
        if i < |a| { assert ab[i] == a[i]; } else { assert ab[i] == b[i - |a|]; }
      }
    }
    if |b| == 0 {
      assert ab == a;
    } else {
      var b' := b[..|b| - 1];
      assert ab[..|ab| - 1] == a + b';
      assert ab[|ab| - 1] == b[|b| - 1];
      ValueConcat(a, b');
      var d := b[|b| - 1] as int - '0' as int;
      var va, vb', p := Value(a), Value(b'), Pow10(|b'|);
      assert Value(ab) == 10 * Value(a + b') + d;
      assert Value(b) == 10 * vb' + d;
      assert Pow10(|b|) == 10 * p;
      MulShift(va, vb', p, d);
    }
  }

  lemma MulShift(va: int, vb: int, p: int, d: int)
    ensures 10 * (va * p + vb) + d == va * (10 * p) + (10 * vb + d)
  {
  }

  function Zeros(k: nat): (s: string)
    ensures |s| == k && AllDigits(s)
    ensures forall i :: 0 <= i < k ==> s[i] == '0'
  {
    seq(k, _ => '0')
  }

  lemma {:induction false} ValueOfZeros(k: nat)
    ensures Value(Zeros(k)) == 0
  {
    if k > 0 {
      assert Zeros(k)[..k - 1] == Zeros(k - 1);
      ValueOfZeros(k - 1);
    }
  }

  /** `fmt.Sprintf("%0*d", width, n)` for a non-negative `n`: left-padded with zeros to at least `width` digits. */
  function ZeroPad(n: nat, width: nat): (s: string)
    ensures |s| == if |Digits(n)| < width then width else |Digits(n)|
    ensures AllDigits(s) && Value(s) == n
  {
    var d := Digits(n);
    var pad := if |d| < width then width - |d| else 0;
    ValueConcat(Zeros(pad), d);
    ValueOfZeros(pad);
    ValueOfDigits(n);
    Zeros(pad) + d
  }

  /** A number between 10^k and 10^(k+1) - 1 has exactly k + 1 digits. */
  lemma {:induction false} DigitsLength(n: nat, k: nat)
    requires Pow10(k) <= n < Pow10(k + 1)
    ensures |Digits(n)| == k + 1
    decreases k
  {
    if k > 0 {
      assert Pow10(k - 1) <= n / 10 < Pow10(k);
      DigitsLength(n / 10, k - 1);
    }
  }

  /** `strconv.Atoi` on a 64-bit platform: an optional sign, then at least one
      decimal digit and nothing else; values outside the `int` range fail. */
  function Atoi(s: string): (r: Option<int>)
    ensures r.Some? ==> MinInt64 <= r.value <= MaxInt64
    ensures r.Some? ==> 1 <= |s| && (IsDigit(s[0]) || (|s| >= 2 && (s[0] == '-' || s[0] == '+')))
    ensures r.Some? ==> AllDigits(s[1..])
  {
    if |s| == 0 then None
    else
      var body := if s[0] == '-' || s[0] == '+' then s[1..] else s;
      if |body| == 0 || !AllDigits(body) then None
      else
        var v: int := if s[0] == '-' then -(Value(body) as int) else Value(body);
        if MinInt64 <= v <= MaxInt64 then Some(v) else None
  }

  /** `strconv.Itoa`: the canonical spelling `Atoi` reads back. */
  function Itoa(n: int): string {
    if n < 0 then "-" + Digits(-n) else Digits(n)
  }

  lemma AtoiItoa(n: int)
    requires MinInt64 <= n <= MaxInt64
    ensures Atoi(Itoa(n)) == Some(n)
  {
    if n < 0 {
      ValueOfDigits(-n);
      assert Itoa(n) == ['-'] + Digits(-n);
      AtoiSigned(Digits(-n), '-');
    } else {
      ValueOfDigits(n);
      AtoiOfDigits(Digits(n));
    }
  }

  /** The converse of the shape clauses of `Atoi`, unsigned: every non-empty
      digit string, leading zeros included, is read as its value exactly when
      that value fits in 64 bits. */
  lemma AtoiOfDigits(b: string)
    requires |b| >= 1 && AllDigits(b)
    ensures Atoi(b) == if Value(b) <= MaxInt64 then Some(Value(b) as int) else None
  {
    assert IsDigit(b[0]);
  }

  /** ... and after a sign: `+` keeps the value, `-` negates it, and the
      result is accepted exactly when it fits in 64 bits. */
  lemma AtoiSigned(b: string, sign: char)
    requires |b| >= 1 && AllDigits(b) && (sign == '+' || sign == '-')
    ensures var v: int := if sign == '-' then -(Value(b) as int) else Value(b);
      Atoi([sign] + b) == if MinInt64 <= v <= MaxInt64 then Some(v) else None
  {
    var s := [sign] + b;
    assert s[0] == sign && s[1..] == b;
  }

  /** Non-canonical spellings Go also accepts. */
  lemma AtoiNonCanonical()
    ensures Atoi("+5") == Some(5)
    ensures Atoi("007") == Some(7)
    ensures Atoi("-0") == Some(0)
  {
    assert Value("5") == 5;
    assert Value("007") == 7 by {
      assert Value("0") == 0;
      assert Value("00") == 0;
    }
    assert Value("0") == 0;
    AtoiSigned("5", '+');
    AtoiSigned("0", '-');
    assert "+5" == ['+'] + "5";
    assert "-0" == ['-'] + "0";
  }
}

=== FILE: hex.dfy ===
/**
 * Base16 encoding as in section 8 of RFC 4648, with the lower-case alphabet
 * Go's `encoding/hex.EncodeToString` emits. Used for the 128-bit nonce and
 * for the SHA-256 digest that binds a refresh token to its access token.
 */
module Hex {
  import opened Wrappers

  type Byte = b: int | 0 <= b < 256

  predicate IsHexDigit(c: char) {
    '0' <= c <= '9' || 'a' <= c <= 'f'
  }

  /** Every character is a lower-case hexadecimal digit. */
  predicate IsLowerHex(s: string) {
    forall i :: 0 <= i < |s| ==> IsHexDigit(s[i])
  }

  function Digit(n: nat): (c: char)
    requires n < 16
    ensures IsHexDigit(c)
  {
    if n < 10 then ('0' as int + n) as char else ('a' as int + n - 10) as char
  }

  function DigitValue(c: char): (r: Option<nat>)
    ensures r.Some? <==> IsHexDigit(c)
    ensures r.Some? ==> r.value < 16 && Digit(r.value) == c
  {
    if '0' <= c <= '9' then Some(c as int - '0' as int)
    else if 'a' <= c <= 'f' then Some(c as int - 'a' as int + 10)
    else None
  }

  lemma DigitValueOfDigit(n: nat)
    requires n < 16
    ensures DigitValue(Digit(n)) == Some(n)
  {
  }

  /** Two characters per byte, high nibble first. */
  function Encode(bytes: seq<Byte>): (s: string)
    ensures |s| == 2 * |bytes|
    ensures IsLowerHex(s)
  {
    if |bytes| == 0 then ""
    else [Digit(bytes[0] / 16), Digit(bytes[0] % 16)] + Encode(bytes[1..])
  }

  /** The inverse of `Encode`: fails on odd length or on any non-digit. */
  function Decode(s: string): (r: Option<seq<Byte>>)
    ensures r.Some? <==> |s| % 2 == 0 && IsLowerHex(s)
    ensures r.Some? ==> 2 * |r.value| == |s|
    decreases |s|
  {
    if |s| == 0 then Some([])
    else if |s| == 1 then None
    else
      match (DigitValue(s[0]), DigitValue(s[1]), Decode(s[2..]))
      case (Some(hi), Some(lo), Some(rest)) => Some([hi * 16 + lo] + rest)
      case _ => None
  }

  lemma {:induction false} DecodeEncode(bytes: seq<Byte>)
    ensures Decode(Encode(bytes)) == Some(bytes)
  {
    if |bytes| > 0 {
      var b := bytes[0];
      var s := Encode(bytes);
      DecodeEncode(bytes[1..]);
      assert s[2..] == Encode(bytes[1..]);
      DigitValueOfDigit(b / 16);
      DigitValueOfDigit(b % 16);
      assert [b] + bytes[1..] == bytes;
    }
  }

  lemma {:induction false} EncodeDecode(s: string)
    requires Decode(s).Some?
    ensures Encode(Decode(s).value) == s
    decreases |s|
  {
    if |s| > 0 {
      var hi := DigitValue(s[0]).value;
      var lo := DigitValue(s[1]).value;
      var rest := Decode(s[2..]).value;
      EncodeDecode(s[2..]);
      var b: Byte := hi * 16 + lo;
      assert b / 16 == hi && b % 16 == lo;
      assert Decode(s).value == [b] + rest;
      assert ([b] + rest)[1..] == rest;
      assert s == [s[0], s[1]] + s[2..];
    }
  }

  /** Distinct byte strings have distinct encodings. */
  lemma EncodeInjective(a: seq<Byte>, b: seq<Byte>)
    requires Encode(a) == Encode(b)
    ensures a == b
  {
    DecodeEncode(a);
    DecodeEncode(b);
  }
}

=== FILE: jws.dfy ===
/**
 * The token format both JWT variants share: the claim set, the HS256 signer
 * and verifier (section 3.2 of RFC 7518) producing and reading the JWS
 * compact serialisation (section 7.1 of RFC 7515), SHA-256, and the two
 * libraries' expiry rules for the `exp` claim (section 4.1.4 of RFC 7519).
 *
 * The cryptography is not computed: `Primitives` carries it as functions, and
 * `Sound` states the only facts the token logic relies on.
 */
module Jws {
  import opened Wrappers
  import Hex

  /** The custom claim set: the four application fields, plus `exp` in whole
      seconds since the epoch and `iss`. */
  datatype Claims = Claims(
    userId: string,
    tokenId: string,
    tokenType: string,
    nonce: string,
    expiresAt: int,
    issuer: string)

  /** The signing key material and algorithms, as opaque functions.
      `sign(key, c)` is `SignedString` (None when signing fails);
      `decode(key, t)` checks the HS256 signature of `t` under `key` and
      decodes its payload, without looking at the clock;
      `sha256(s)` is `sha256.Sum256` of the bytes of `s`. */
  datatype Primitives = Primitives(
    sign: (string, Claims) -> Option<string>,
    decode: (string, string) -> Option<Claims>,
    sha256: string -> seq<Hex.Byte>)

  /** The assumed behaviour of the primitives: what was signed under a key
      decodes under that key to the same claims, and a digest is 32 bytes. */
  ghost predicate Sound(p: Primitives) {
    && (forall key, c :: p.sign(key, c).Some? ==> p.decode(key, p.sign(key, c).value) == Some(c))
    && (forall data :: |p.sha256(data)| == 32)
  }

  /** The assumptions are consistent with signing succeeding: some primitives
      satisfy them and sign at least one claim set. */
  lemma SoundIsSatisfiable()
    ensures exists p, key, c :: Sound(p) && p.sign(key, c).Some?
  {
    var c0 := Claims("u1", "", "access", "", 1, "iss");
    var p := Primitives(
      (key: string, c: Claims) => if c == c0 then Some("t") else None,
      (key: string, t: string) => if t == "t" then Some(c0) else None,
      (data: string) => seq(32, _ => 0));
    assert Sound(p) && p.sign("k", c0).Some?;
  }

  /** `ParseWithClaims` of golang-jwt v5 with default options: the signature
      must verify and the token is rejected once `now` reaches `exp`. */
  function ParseStrict(p: Primitives, key: string, token: string, now: int): (r: Option<Claims>)
    ensures r.Some? ==> p.decode(key, token) == r && now < r.value.expiresAt
    ensures p.decode(key, token).Some? && now < p.decode(key, token).value.expiresAt ==> r.Some?
  {
    match p.decode(key, token)
    case None => None
    case Some(c) => if now < c.expiresAt then Some(c) else None
  }

  /** The v3 expiry rule: `exp` 0 means no expiry, otherwise live through the second `exp`. */
  predicate LegacyLive(expiresAt: int, now: int) {
    expiresAt == 0 || now <= expiresAt
  }

  /** `ParseWithClaims` of dgrijalva/jwt-go v3: `exp` equal to 0 means no
      expiry, and a token is still valid in the very second `exp` names. */
  function ParseLegacy(p: Primitives, key: string, token: string, now: int): (r: Option<Claims>)
    ensures r.Some? ==> p.decode(key, token) == r && LegacyLive(r.value.expiresAt, now)
    ensures p.decode(key, token).Some? && LegacyLive(p.decode(key, token).value.expiresAt, now) ==> r.Some?
  {
    match p.decode(key, token)
    case None => None
    case Some(c) => if LegacyLive(c.expiresAt, now) then Some(c) else None
  }

  /** The two rules compared: whatever v5 accepts, v3 accepts with the same
      claims, and v3 accepts more exactly in the second `exp` names and, for
      `exp` 0, at every time from the epoch on. */
  lemma LegacyParseAcceptsMore(p: Primitives, key: string, token: string, now: int)
    ensures ParseStrict(p, key, token, now).Some? ==> ParseLegacy(p, key, token, now) == ParseStrict(p, key, token, now)
    ensures ParseLegacy(p, key, token, now).Some? && ParseStrict(p, key, token, now).None? <==>
      && p.decode(key, token).Some?
      && (now == p.decode(key, token).value.expiresAt || (p.decode(key, token).value.expiresAt == 0 && now >= 0))
  {
  }

  /** A signed token parses back to its claims exactly while it has not expired. */
  lemma SignedTokenParses(p: Primitives, key: string, c: Claims, now: int)
    requires Sound(p)
    requires p.sign(key, c).Some?
    ensures ParseStrict(p, key, p.sign(key, c).value, now) == if now < c.expiresAt then Some(c) else None
    ensures ParseLegacy(p, key, p.sign(key, c).value, now)
      == if c.expiresAt == 0 || now <= c.expiresAt then Some(c) else None
  {
  }

  /** `hex.EncodeToString` of the SHA-256 digest of `data`. */
  function HashHex(p: Primitives, data: string): (h: string)
    ensures Sound(p) ==> |h| == 64
    ensures Hex.IsLowerHex(h)
    ensures Hex.Decode(h) == Some(p.sha256(data))
  {
    Hex.DecodeEncode(p.sha256(data));
    Hex.Encode(p.sha256(data))
  }

  /** Equal hex digests mean equal SHA-256 digests. */
  lemma HashHexInjective(p: Primitives, a: string, b: string)
    requires HashHex(p, a) == HashHex(p, b)
    ensures p.sha256(a) == p.sha256(b)
  {
    Hex.EncodeInjective(p.sha256(a), p.sha256(b));
  }

  /** `generateNonce`: 16 random bytes, hex-encoded. `entropy` is what
      `crypto/rand` delivered, or None when reading it failed. */
  function GenerateNonce(entropy: Option<seq<Hex.Byte>>): (r: Option<string>)
    requires entropy.Some? ==> |entropy.value| == 16
    ensures r.Some? <==> entropy.Some?
    ensures r.Some? ==> |r.value| == 32 && Hex.IsLowerHex(r.value)
    ensures r.Some? ==> Hex.Decode(r.value) == entropy
  {
    match entropy
    case None => None
    case Some(bytes) =>
      Hex.DecodeEncode(bytes);
      Some(Hex.Encode(bytes))
  }
}

=== FILE: legacy_jwt.dfy ===
/**
 * The older free-function JWT code of `pkg/jwt/jwt.go`, which the HTTP
 * handlers call: fixed lifetimes and issuer, nonce persistence stubbed out,
 * dgrijalva/jwt-go expiry rules, and a rotation that binds the new refresh
 * token to the access token that was PRESENTED rather than the one it issues.
 */
module LegacyJwt {
  import opened Wrappers
  import Hex
  import opened Jws

  const AccessTokenDuration: int := 24 * 60 * 60        // 24h, in seconds
  const RefreshTokenDuration: int := 7 * 24 * 60 * 60   // 7 * 24h, in seconds
  const Issuer: string := "ui_platform_auth_service"

  datatype Error =
    | EntropyUnavailable   // crypto/rand failed
    | SigningFailed        // SignedString failed
    | ParseFailed          // signature, structure or expiry rejected
    | InvalidTokenType     // "invalid token type"
    | HashMismatch         // "invalid refresh token or access token hash does not match"
    | NonceCheckFailed     // "invalid nonce or nonce check failed"

  /** Go's named results `(accessToken, refreshToken, err)`. */
  datatype TokenPair = TokenPair(access: string, refresh: string, err: Option<Error>)

  function Fail(e: Error): TokenPair {
    TokenPair("", "", Some(e))
  }

  /** `token` is signed under `secretKey` and carries exactly `c`. */
  ghost predicate Carries(crypto: Primitives, secretKey: string, token: string, c: Claims) {
    crypto.decode(secretKey, token) == Some(c)
  }

  /** `saveNonce`: a stub that stores nothing and never fails. */
  function SaveNonce(nonce: string, refreshToken: string): (err: Option<Error>)
    ensures err.None?
  {
    None
  }

  /** `validateNonce`: a stub that accepts every nonce. */
  function ValidateNonce(nonce: string, refreshToken: string): (r: Result<bool, Error>)
    ensures r == Success(true)
  {
    Success(true)
  }

  /** `generateJWT`. */
  function GenerateJWT(crypto: Primitives, secretKey: string, userId: string, duration: int,
                       accessTokenHash: string, tokenType: string, nonce: string, now: int): (r: Result<string, Error>)
    ensures r.Failure? ==> r.error == SigningFailed
    ensures Sound(crypto) && r.Success? ==>
      Carries(crypto, secretKey, r.value, Claims(userId, accessTokenHash, tokenType, nonce, now + duration, Issuer))
  {
    match crypto.sign(secretKey, Claims(userId, accessTokenHash, tokenType, nonce, now + duration, Issuer))
    case None => Failure(SigningFailed)
    case Some(token) => Success(token)
  }

  /** `GenerateTokenPair(secretKey, userID)`. */
  function GenerateTokenPair(crypto: Primitives, secretKey: string, userId: string,
                             entropy: Option<seq<Hex.Byte>>, now: int): (r: TokenPair)
    requires entropy.Some? ==> |entropy.value| == 16
    ensures r.err.Some? ==> r.access == "" && r.refresh == ""
    // nonce storage never makes issuance fail: only entropy and signing can
    ensures r.err.Some? ==> r.err.value == EntropyUnavailable || r.err.value == SigningFailed
    ensures r.err == Some(EntropyUnavailable) <==> entropy.None?
    ensures r.err.None? <==>
      && entropy.Some?
      && crypto.sign(secretKey, Claims(userId, "", "access", "", now + AccessTokenDuration, Issuer)).Some?
      && crypto.sign(secretKey, Claims(userId,
           HashHex(crypto, crypto.sign(secretKey, Claims(userId, "", "access", "", now + AccessTokenDuration, Issuer)).value),
           "refresh", Hex.Encode(entropy.value), now + RefreshTokenDuration, Issuer)).Some?
    ensures Sound(crypto) && r.err.None? ==>
      && Carries(crypto, secretKey, r.access, Claims(userId, "", "access", "", now + AccessTokenDuration, Issuer))
      && Carries(crypto, secretKey, r.refresh,
           Claims(userId, HashHex(crypto, r.access), "refresh", Hex.Encode(entropy.value), now + RefreshTokenDuration, Issuer))
  {
    match GenerateNonce(entropy)
    case None => Fail(EntropyUnavailable)
    case Some(nonce) =>
      match GenerateJWT(crypto, secretKey, userId, AccessTokenDuration, "", "access", "", now)
      case Failure(e) => Fail(e)
      case Success(access) =>
        var accessHash := HashHex(crypto, access);
        match GenerateJWT(crypto, secretKey, userId, RefreshTokenDuration, accessHash, "refresh", nonce, now)
        case Failure(e) => Fail(e)
        case Success(refresh) =>
          match SaveNonce(nonce, refresh)
          case Some(e) => Fail(e)
          case None => TokenPair(access, refresh, None)
  }

  /** `ValidateJWT(tokenString, secretKey, expectedTokenType)`. */
  function ValidateJWT(crypto: Primitives, tokenString: string, secretKey: string, expectedTokenType: string,
                       now: int): (r: Result<string, Error>)
    ensures r.Success? <==>
      exists c :: Carries(crypto, secretKey, tokenString, c) && LegacyLive(c.expiresAt, now) && c.tokenType == expectedTokenType
    ensures forall c :: Carries(crypto, secretKey, tokenString, c) && r.Success? ==> r.value == c.userId
    ensures r.Failure? ==> r.error == ParseFailed || r.error == InvalidTokenType
    ensures r == Failure(ParseFailed) <==> ParseLegacy(crypto, secretKey, tokenString, now).None?
  {
    match ParseLegacy(crypto, secretKey, tokenString, now)
    case None => Failure(ParseFailed)
    case Some(c) =>
      if c.tokenType != expectedTokenType then Failure(InvalidTokenType) else Success(c.userId)
  }

  /** `ValidateRefreshToken(refreshToken, accessToken, secretKey)`: signature
      and expiry, then type and binding to `accessToken`; the nonce check is
      the accepting stub. */
  function ValidateRefreshToken(crypto: Primitives, refreshToken: string, accessToken: string, secretKey: string,
                                now: int): (r: Result<Claims, Error>)
    ensures r.Success? <==>
      exists c :: && Carries(crypto, secretKey, refreshToken, c) && LegacyLive(c.expiresAt, now)
                  && c.tokenType == "refresh" && c.tokenId == HashHex(crypto, accessToken)
    ensures r.Success? ==> Carries(crypto, secretKey, refreshToken, r.value)
    ensures r.Failure? ==> r.error == ParseFailed || r.error == HashMismatch
    ensures r == Failure(ParseFailed) <==> ParseLegacy(crypto, secretKey, refreshToken, now).None?
  {
    var accessHash := HashHex(crypto, accessToken);
    match ParseLegacy(crypto, secretKey, refreshToken, now)
    case None => Failure(ParseFailed)
    case Some(c) =>
      if c.tokenType != "refresh" || c.tokenId != accessHash then Failure(HashMismatch)
      else match ValidateNonce(c.nonce, refreshToken)
        case Success(true) => Success(c)
        case _ => Failure(NonceCheckFailed)
  }

  /** `RefreshTokens(refreshToken, accessToken, secretKey)` as written: the new
      refresh token's `TokenId` is the hash of the OLD `accessToken`. */
  function RefreshTokens(crypto: Primitives, refreshToken: string, accessToken: string, secretKey: string,
                         now: int): (r: TokenPair)
    ensures r.err.Some? ==> r.access == "" && r.refresh == ""
    ensures ValidateRefreshToken(crypto, refreshToken, accessToken, secretKey, now).Failure? ==>
      r.err == Some(ValidateRefreshToken(crypto, refreshToken, accessToken, secretKey, now).error)
    // once validation passes, only signing can fail
    ensures r.err.None? <==>
      var v := ValidateRefreshToken(crypto, refreshToken, accessToken, secretKey, now);
      && v.Success?
      && crypto.sign(secretKey, Claims(v.value.userId, "", "access", "", now + AccessTokenDuration, Issuer)).Some?
      && crypto.sign(secretKey, Claims(v.value.userId, HashHex(crypto, accessToken), "refresh", v.value.nonce,
                                       now + RefreshTokenDuration, Issuer)).Some?
    ensures ValidateRefreshToken(crypto, refreshToken, accessToken, secretKey, now).Success? && r.err.Some? ==>
      r.err == Some(SigningFailed)
    ensures Sound(crypto) && r.err.None? ==>
      var prior := ValidateRefreshToken(crypto, refreshToken, accessToken, secretKey, now).value;
      && Carries(crypto, secretKey, r.access, Claims(prior.userId, "", "access", "", now + AccessTokenDuration, Issuer))
      && Carries(crypto, secretKey, r.refresh,
           Claims(prior.userId, HashHex(crypto, accessToken), "refresh", prior.nonce, now + RefreshTokenDuration, Issuer))
  {
    match ValidateRefreshToken(crypto, refreshToken, accessToken, secretKey, now)
    case Failure(e) => Fail(e)
    case Success(claims) =>
      match GenerateJWT(crypto, secretKey, claims.userId, AccessTokenDuration, "", "access", "", now)
      case Failure(e) => Fail(e)
      case Success(newAccess) =>
        var accessHash := HashHex(crypto, accessToken);
        match GenerateJWT(crypto, secretKey, claims.userId, RefreshTokenDuration, accessHash, "refresh", claims.nonce, now)
        case Failure(e) => Fail(e)
        case Success(newRefresh) => TokenPair(newAccess, newRefresh, None)
  }

  /** Round trip: the issued access token validates as "access" for its user
      through the last second of its 24 hours, and never as "refresh". */
  lemma IssuedAccessTokenValidates(crypto: Primitives, secretKey: string, userId: string,
                                   entropy: Option<seq<Hex.Byte>>, now: int, t: int)
    requires entropy.Some? ==> |entropy.value| == 16
    requires Sound(crypto)
    requires GenerateTokenPair(crypto, secretKey, userId, entropy, now).err.None?
    requires t <= now + AccessTokenDuration
    ensures ValidateJWT(crypto, GenerateTokenPair(crypto, secretKey, userId, entropy, now).access,
                        secretKey, "access", t) == Success(userId)
    ensures ValidateJWT(crypto, GenerateTokenPair(crypto, secretKey, userId, entropy, now).access,
                        secretKey, "refresh", t).Failure?
  {
  }

  /** A refresh token is never used up: one that validates at some time still
      validates at every time up to its expiry, however often it was rotated. */
  lemma RefreshTokenReusable(crypto: Primitives, refreshToken: string, accessToken: string, secretKey: string,
                             t1: int, t2: int)
    requires ValidateRefreshToken(crypto, refreshToken, accessToken, secretKey, t1).Success?
    requires LegacyLive(ValidateRefreshToken(crypto, refreshToken, accessToken, secretKey, t1).value.expiresAt, t2)
    ensures ValidateRefreshToken(crypto, refreshToken, accessToken, secretKey, t2)
         == ValidateRefreshToken(crypto, refreshToken, accessToken, secretKey, t1)
    ensures RefreshTokens(crypto, refreshToken, accessToken, secretKey, t2).err.Some? ==>
      RefreshTokens(crypto, refreshToken, accessToken, secretKey, t2).err == Some(SigningFailed)
  {
    var c := ValidateRefreshToken(crypto, refreshToken, accessToken, secretKey, t1).value;
    assert Carries(crypto, secretKey, refreshToken, c);
  }

  /** As written, rotation binds the new refresh token to the old access
      token: (new refresh, old access) is accepted for the next rotation. */
  lemma RotationBindsOldAccessToken(crypto: Primitives, refreshToken: string, accessToken: string, secretKey: string,
                                    now: int, t: int)
    requires Sound(crypto)
    requires RefreshTokens(crypto, refreshToken, accessToken, secretKey, now).err.None?
    requires t <= now + RefreshTokenDuration
    ensures ValidateRefreshToken(crypto, RefreshTokens(crypto, refreshToken, accessToken, secretKey, now).refresh,
                                 accessToken, secretKey, t).Success?
  {
    var r := RefreshTokens(crypto, refreshToken, accessToken, secretKey, now);
    var prior := ValidateRefreshToken(crypto, refreshToken, accessToken, secretKey, now).value;
    var c := Claims(prior.userId, HashHex(crypto, accessToken), "refresh", prior.nonce, now + RefreshTokenDuration, Issuer);
    assert Carries(crypto, secretKey, r.refresh, c) && LegacyLive(c.expiresAt, t);
  }

  /** ... and the pair the caller actually receives, (new refresh, new access),
      is rejected unless the new access token hashes like the old one. */
  lemma RotatedPairRejected(crypto: Primitives, refreshToken: string, accessToken: string, secretKey: string,
                            now: int, t: int)
    requires Sound(crypto)
    requires RefreshTokens(crypto, refreshToken, accessToken, secretKey, now).err.None?
    requires
      var r := RefreshTokens(crypto, refreshToken, accessToken, secretKey, now);
      crypto.sha256(r.access) != crypto.sha256(accessToken)
    ensures
      var r := RefreshTokens(crypto, refreshToken, accessToken, secretKey, now);
      ValidateRefreshToken(crypto, r.refresh, r.access, secretKey, t) == Failure(HashMismatch)
      || ValidateRefreshToken(crypto, r.refresh, r.access, secretKey, t) == Failure(ParseFailed)
  {
    var r := RefreshTokens(crypto, refreshToken, accessToken, secretKey, now);
    var prior := ValidateRefreshToken(crypto, refreshToken, accessToken, secretKey, now).value;
    var c := Claims(prior.userId, HashHex(crypto, accessToken), "refresh", prior.nonce, now + RefreshTokenDuration, Issuer);
    assert Carries(crypto, secretKey, r.refresh, c);
    if HashHex(crypto, r.access) == HashHex(crypto, accessToken) {
      HashHexInjective(crypto, r.access, accessToken);
    }
  }
}

=== FILE: nonce_storage.dfy ===
/**
 * The `NonceStorage` capability of the token service, as an exact-match map
 * from a nonce to the refresh token it is bound to. `readable` and `writable`
 * stand for whether the backing store answers `Validate` and `Save`: a call
 * the store does not answer errors, and the two can fail independently.
 */
module NonceStorage {
  import opened Wrappers

  datatype Store = Store(bindings: map<string, string>, readable: bool, writable: bool)

  datatype StoreError = Unreachable

  /** `Save(nonce, token)`: bind `nonce` to `token`, replacing any earlier binding. */
  function Save(s: Store, nonce: string, token: string): (r: Result<Store, StoreError>)
    ensures r.Success? <==> s.writable
    ensures r.Success? ==> r.value.readable == s.readable && r.value.writable
    ensures r.Success? && s.readable ==> forall t :: Validate(r.value, nonce, t) == Success(t == token)
    ensures r.Success? ==> forall n, t :: n != nonce ==> Validate(r.value, n, t) == Validate(s, n, t)
  {
    if s.writable then Success(s.(bindings := s.bindings[nonce := token])) else Failure(Unreachable)
  }

  /** `Validate(nonce, token)`: true exactly when `nonce` is bound to this very token. */
  function Validate(s: Store, nonce: string, token: string): (r: Result<bool, StoreError>)
    ensures r.Success? <==> s.readable
    ensures r == Success(true) <==> s.readable && nonce in s.bindings && s.bindings[nonce] == token
  {
    if s.readable then Success(nonce in s.bindings && s.bindings[nonce] == token) else Failure(Unreachable)
  }
}

=== FILE: project_entity.dfy ===
/**
 * The project entity of `internal/entity/project.go`: its status constants
 * and its field-length validation. Lengths are Go's `len`, in UTF-8 bytes.
 */
module ProjectEntity {
  import opened Wrappers
  import Utf8

  const StatusPublished: string := "Published"
  const StatusUnpublished: string := "Unpublished"
  const StatusArchived: string := "Archived"

  const MaxNameBytes: nat := 100
  const MaxDescriptionBytes: nat := 4000

  /** Timestamps are seconds; only `name` and `description` are validated. */
  datatype Project = Project(
    id: string,
    name: string,
    description: string,
    status: string,
    createdAt: int,
    updatedAt: int,
    deletedAt: int)

  datatype ProjectError =
    | NameRequired
    | NameTooLong
    | DescriptionRequired
    | DescriptionTooLong
  {
    predicate IsNameError() {
      this == NameRequired || this == NameTooLong
    }

    /** The messages as written; the description one names 1000 although
        the enforced limit is 4000. */
    function Message(): string {
      match this
      case NameRequired => "name is required"
      case NameTooLong => "name must be less than 100 characters"
      case DescriptionRequired => "description is required"
      case DescriptionTooLong => "description must be less than 1000 characters"
    }
  }

  /** `Project.Validate`: name checks, then description checks. */
  function Validate(p: Project): (r: Option<ProjectError>)
    ensures r.None? <==>
      1 <= Utf8.ByteLength(p.name) <= MaxNameBytes && 1 <= Utf8.ByteLength(p.description) <= MaxDescriptionBytes
    ensures !(1 <= Utf8.ByteLength(p.name) <= MaxNameBytes) ==> r.Some? && r.value.IsNameError()
    ensures r == Some(NameRequired) <==> p.name == ""
    ensures r == Some(DescriptionRequired) <==> 1 <= Utf8.ByteLength(p.name) <= MaxNameBytes && p.description == ""
    ensures r == Some(DescriptionTooLong) <==>
      1 <= Utf8.ByteLength(p.name) <= MaxNameBytes && Utf8.ByteLength(p.description) > MaxDescriptionBytes
  {
    if p.name == "" then Some(NameRequired)
    else if Utf8.ByteLength(p.name) > MaxNameBytes then Some(NameTooLong)
    else if p.description == "" then Some(DescriptionRequired)
    else if Utf8.ByteLength(p.description) > MaxDescriptionBytes then Some(DescriptionTooLong)
    else None
  }

  /** Only the name and the description matter: id, status and timestamps do not. */
  lemma ValidateIgnoresOtherFields(p: Project, q: Project)
    requires p.name == q.name && p.description == q.description
    ensures Validate(p) == Validate(q)
  {
  }

  /** The name bound is inclusive: a 100-byte name passes, a 101-byte name fails. */
  lemma NameLengthBoundary(p: Project)
    requires p.description == "d"
    ensures Validate(p.(name := Utf8.Repeat('a', 100))).None?
    ensures Validate(p.(name := Utf8.Repeat('a', 101))) == Some(NameTooLong)
  {
    assert Utf8.ByteLength(p.description) == 1;
    Utf8.RepeatByteLength('a', 100);
    Utf8.RepeatByteLength('a', 101);
  }

  /** The description bound is inclusive: 4000 bytes pass, 4001 bytes fail. */
  lemma DescriptionLengthBoundary(p: Project)
    requires p.name == "n"
    ensures Validate(p.(description := Utf8.Repeat('a', 4000))).None?
    ensures Validate(p.(description := Utf8.Repeat('a', 4001))) == Some(DescriptionTooLong)
  {
    assert Utf8.ByteLength(p.name) == 1;
    Utf8.RepeatByteLength('a', 4000);
    Utf8.RepeatByteLength('a', 4001);
  }
}

=== FILE: token_service.dfy ===
/**
 * The JWT service of `pkg/jwt/service.go`: issuing an access/refresh pair,
 * validating a token against an expected type, and rotating a refresh token
 * bound to its access token and to a nonce in an optional nonce store.
 *
 * The clock is the parameter `now` (whole seconds); the random nonce is the
 * parameter `entropy`; the store's state is threaded through the `Service`
 * value and returned in `Issued.nonces`.
 */
module TokenService {
  import opened Wrappers
  import Hex
  import opened Jws
  import NonceStorage

  const Issuer: string := "ui-platform-auth-service"
  const AccessType: string := "access"
  const RefreshType: string := "refresh"

  /** HMAC key and token lifetimes (seconds). */
  datatype Config = Config(secretKey: string, accessTTL: int, refreshTTL: int)

  /** A service instance: its configuration, its primitives, and its nonce store,
      which is None when the service was built without one. */
  datatype Service = Service(cfg: Config, crypto: Primitives, nonces: Option<NonceStorage.Store>)

  datatype Error =
    | EntropyUnavailable        // crypto/rand failed
    | SigningFailed             // SignedString failed
    | ParseFailed               // signature, structure or expiry rejected
    | UnexpectedTokenType       // "unexpected token type"
    | RefreshTokenHashMismatch  // "refresh token hash mismatch"
    | NonceValidationFailed     // "nonce validation failed"
    | StorageFailed             // error from NonceStorage.Save

  /** Go's `(access, refresh, err)`, with the nonce store as it is afterwards. */
  datatype Issued = Issued(access: string, refresh: string, err: Option<Error>, nonces: Option<NonceStorage.Store>)

  /** The failure shape of both issuing operations: no tokens, store untouched. */
  function Fail(svc: Service, e: Error): Issued {
    Issued("", "", Some(e), svc.nonces)
  }

  /** `token` is signed under the service key and carries exactly `c`. */
  ghost predicate Carries(svc: Service, token: string, c: Claims) {
    svc.crypto.decode(svc.cfg.secretKey, token) == Some(c)
  }

  function AccessClaims(cfg: Config, userId: string, now: int): Claims {
    Claims(userId, "", AccessType, "", now + cfg.accessTTL, Issuer)
  }

  function RefreshClaims(cfg: Config, userId: string, accessHash: string, nonce: string, now: int): Claims {
    Claims(userId, accessHash, RefreshType, nonce, now + cfg.refreshTTL, Issuer)
  }

  /** The refresh claims are bound to `access`: right type, and `TokenId` is
      the hex SHA-256 of that access token. */
  predicate BoundTo(svc: Service, c: Claims, access: string) {
    c.tokenType == RefreshType && c.tokenId == HashHex(svc.crypto, access)
  }

  /** Both tokens of a pair can be signed: the access claims, and the refresh
      claims bound to the access token that signing produced. */
  predicate PairSigns(svc: Service, userId: string, nonce: string, now: int) {
    var access := svc.crypto.sign(svc.cfg.secretKey, AccessClaims(svc.cfg, userId, now));
    && access.Some?
    && svc.crypto.sign(svc.cfg.secretKey,
         RefreshClaims(svc.cfg, userId, HashHex(svc.crypto, access.value), nonce, now)).Some?
  }

  /** Recording a nonce succeeds: there is no store, or the store accepts writes. */
  predicate CanSave(nonces: Option<NonceStorage.Store>) {
    nonces.None? || nonces.value.writable
  }

  /** `generateJWT`: sign one claim set expiring `ttl` seconds after `now`. */
  function GenerateJWT(svc: Service, userId: string, ttl: int, accessTokenHash: string, tokenType: string,
                       nonce: string, now: int): (r: Result<string, Error>)
    ensures r.Failure? ==> r.error == SigningFailed
    ensures Sound(svc.crypto) && r.Success? ==>
      Carries(svc, r.value, Claims(userId, accessTokenHash, tokenType, nonce, now + ttl, Issuer))
  {
    match svc.crypto.sign(svc.cfg.secretKey, Claims(userId, accessTokenHash, tokenType, nonce, now + ttl, Issuer))
    case None => Failure(SigningFailed)
    case Some(token) => Success(token)
  }

  /** Record `nonce` for `refresh` when there is a store; None on a store error. */
  function SaveNonce(nonces: Option<NonceStorage.Store>, nonce: string, refresh: string)
    : Option<Option<NonceStorage.Store>>
  {
    match nonces
    case None => Some(None)
    case Some(store) =>
      match NonceStorage.Save(store, nonce, refresh)
      case Failure(_) => None
      case Success(store') => Some(Some(store'))
  }

  /** `GenerateTokenPair`. */
  function GenerateTokenPair(svc: Service, userId: string, entropy: Option<seq<Hex.Byte>>, now: int): (r: Issued)
    requires entropy.Some? ==> |entropy.value| == 16
    // all or nothing: on any error, no tokens and no change to the store
    ensures r.err.Some? ==> r.access == "" && r.refresh == "" && r.nonces == svc.nonces
    // which step fails decides the error; with no store nothing can be saved, so
    // the pair is returned as soon as both tokens are signed
    ensures r.err == Some(EntropyUnavailable) <==> entropy.None?
    ensures r.err == Some(SigningFailed) <==>
      entropy.Some? && !PairSigns(svc, userId, Hex.Encode(entropy.value), now)
    ensures r.err == Some(StorageFailed) <==>
      entropy.Some? && PairSigns(svc, userId, Hex.Encode(entropy.value), now) && !CanSave(svc.nonces)
    ensures r.err.None? <==>
      entropy.Some? && PairSigns(svc, userId, Hex.Encode(entropy.value), now) && CanSave(svc.nonces)
    ensures svc.nonces.None? ==> r.nonces.None?
    // the pair: an access token for userId, and a refresh token bound to it
    // and carrying the fresh nonce
    ensures Sound(svc.crypto) && r.err.None? ==>
      && Carries(svc, r.access, AccessClaims(svc.cfg, userId, now))
      && Carries(svc, r.refresh, RefreshClaims(svc.cfg, userId, HashHex(svc.crypto, r.access),
                                               Hex.Encode(entropy.value), now))
    // with a store, the nonce is now bound to the returned refresh token and nothing else moved
    ensures r.err.None? && svc.nonces.Some? ==>
      && r.nonces.Some? && r.nonces.value.readable == svc.nonces.value.readable
      && r.nonces.value.writable == svc.nonces.value.writable
      && (svc.nonces.value.readable ==>
            forall t :: NonceStorage.Validate(r.nonces.value, Hex.Encode(entropy.value), t) == Success(t == r.refresh))
      && (forall n, t :: n != Hex.Encode(entropy.value) ==>
            NonceStorage.Validate(r.nonces.value, n, t) == NonceStorage.Validate(svc.nonces.value, n, t))
  {
    match GenerateNonce(entropy)
    case None => Fail(svc, EntropyUnavailable)
    case Some(nonce) =>
      match GenerateJWT(svc, userId, svc.cfg.accessTTL, "", AccessType, "", now)
      case Failure(e) => Fail(svc, e)
      case Success(access) =>
        var accessHash := HashHex(svc.crypto, access);
        match GenerateJWT(svc, userId, svc.cfg.refreshTTL, accessHash, RefreshType, nonce, now)
        case Failure(e) => Fail(svc, e)
        case Success(refresh) =>
          match SaveNonce(svc.nonces, nonce, refresh)
          case None => Fail(svc, StorageFailed)
          case Some(nonces') => Issued(access, refresh, None, nonces')
  }

  /** `ValidateJWT`: the user id of an unexpired, correctly signed token of the expected type. */
  function ValidateJWT(svc: Service, token: string, expectedType: string, now: int): (r: Result<string, Error>)
    ensures r.Success? <==>
      exists c :: Carries(svc, token, c) && now < c.expiresAt && c.tokenType == expectedType
    ensures forall c :: Carries(svc, token, c) && r.Success? ==> r.value == c.userId
    ensures r.Failure? ==> r.error == ParseFailed || r.error == UnexpectedTokenType
    ensures r == Failure(ParseFailed) <==> ParseStrict(svc.crypto, svc.cfg.secretKey, token, now).None?
  {
    match ParseStrict(svc.crypto, svc.cfg.secretKey, token, now)
    case None => Failure(ParseFailed)
    case Some(c) =>
      if c.tokenType != expectedType then Failure(UnexpectedTokenType) else Success(c.userId)
  }

  /** `validateRefreshToken`: signature and expiry, then type and binding to
      `access`, then (only with a store) the nonce. */
  function ValidateRefreshToken(svc: Service, refresh: string, access: string, now: int): (r: Result<Claims, Error>)
    ensures r.Success? ==> Carries(svc, refresh, r.value) && now < r.value.expiresAt && BoundTo(svc, r.value, access)
    ensures r.Success? && svc.nonces.Some? ==>
      NonceStorage.Validate(svc.nonces.value, r.value.nonce, refresh) == Success(true)
    // the binding is checked before the store is consulted
    ensures forall c :: Carries(svc, refresh, c) && now < c.expiresAt && !BoundTo(svc, c, access) ==>
      r == Failure(RefreshTokenHashMismatch)
    // with no store the nonce check is skipped entirely
    ensures forall c :: Carries(svc, refresh, c) && now < c.expiresAt && BoundTo(svc, c, access) ==>
      (r.Success? <==> svc.nonces.None? || NonceStorage.Validate(svc.nonces.value, c.nonce, refresh) == Success(true))
    ensures r.Failure? ==> r.error in {ParseFailed, RefreshTokenHashMismatch, NonceValidationFailed}
    // a live, bound token that still fails has failed the nonce check
    ensures forall c :: Carries(svc, refresh, c) && now < c.expiresAt && BoundTo(svc, c, access) && r.Failure? ==>
      r == Failure(NonceValidationFailed)
    ensures r == Failure(ParseFailed) <==> ParseStrict(svc.crypto, svc.cfg.secretKey, refresh, now).None?
  {
    var accessHash := HashHex(svc.crypto, access);
    match ParseStrict(svc.crypto, svc.cfg.secretKey, refresh, now)
    case None => Failure(ParseFailed)
    case Some(c) =>
      if c.tokenType != RefreshType || c.tokenId != accessHash then Failure(RefreshTokenHashMismatch)
      else match svc.nonces
        case None => Success(c)
        case Some(store) =>
          match NonceStorage.Validate(store, c.nonce, refresh)
          case Success(true) => Success(c)
          case _ => Failure(NonceValidationFailed)
  }

  /** `RefreshTokens`: validate, then mint a new pair for the same user that
      carries the same nonce, and re-bind that nonce to the new refresh token. */
  function RefreshTokens(svc: Service, refresh: string, access: string, now: int): (r: Issued)
    ensures r.err.Some? ==> r.access == "" && r.refresh == "" && r.nonces == svc.nonces
    ensures ValidateRefreshToken(svc, refresh, access, now).Failure? ==>
      r.err == Some(ValidateRefreshToken(svc, refresh, access, now).error)
    ensures r.err == Some(SigningFailed) <==>
      var v := ValidateRefreshToken(svc, refresh, access, now);
      v.Success? && !PairSigns(svc, v.value.userId, v.value.nonce, now)
    // Save can fail after Validate succeeded; the rotation then fails as a whole
    ensures r.err == Some(StorageFailed) <==>
      var v := ValidateRefreshToken(svc, refresh, access, now);
      v.Success? && PairSigns(svc, v.value.userId, v.value.nonce, now) && !CanSave(svc.nonces)
    ensures r.err.None? <==>
      var v := ValidateRefreshToken(svc, refresh, access, now);
      v.Success? && PairSigns(svc, v.value.userId, v.value.nonce, now) && CanSave(svc.nonces)
    ensures svc.nonces.None? ==> r.nonces.None?
    ensures Sound(svc.crypto) && r.err.None? ==>
      var prior := ValidateRefreshToken(svc, refresh, access, now).value;
      && Carries(svc, r.access, AccessClaims(svc.cfg, prior.userId, now))
      && Carries(svc, r.refresh, RefreshClaims(svc.cfg, prior.userId, HashHex(svc.crypto, r.access), prior.nonce, now))
    ensures r.err.None? && svc.nonces.Some? ==>
      var nonce := ValidateRefreshToken(svc, refresh, access, now).value.nonce;
      && r.nonces.Some? && r.nonces.value.readable && r.nonces.value.writable
      && (forall t :: NonceStorage.Validate(r.nonces.value, nonce, t) == Success(t == r.refresh))
      && (forall n, t :: n != nonce ==>
            NonceStorage.Validate(r.nonces.value, n, t) == NonceStorage.Validate(svc.nonces.value, n, t))
  {
    match ValidateRefreshToken(svc, refresh, access, now)
    case Failure(e) => Fail(svc, e)
    case Success(claims) =>
      match GenerateJWT(svc, claims.userId, svc.cfg.accessTTL, "", AccessType, "", now)
      case Failure(e) => Fail(svc, e)
      case Success(newAccess) =>
        var accessHash := HashHex(svc.crypto, newAccess);
        match GenerateJWT(svc, claims.userId, svc.cfg.refreshTTL, accessHash, RefreshType, claims.nonce, now)
        case Failure(e) => Fail(svc, e)
        case Success(newRefresh) =>
          match SaveNonce(svc.nonces, claims.nonce, newRefresh)
          case None => Fail(svc, StorageFailed)
          case Some(nonces') => Issued(newAccess, newRefresh, None, nonces')
  }

  /** The service as it is after an issuing operation has updated its store. */
  function After(svc: Service, r: Issued): Service {
    svc.(nonces := r.nonces)
  }

  /** Round trip: an issued access token validates as "access" and yields the
      user id it was issued for, until it expires. */
  lemma IssuedAccessTokenValidates(svc: Service, userId: string, entropy: Option<seq<Hex.Byte>>, now: int, t: int)
    requires entropy.Some? ==> |entropy.value| == 16
    requires Sound(svc.crypto)
    requires GenerateTokenPair(svc, userId, entropy, now).err.None?
    requires t < now + svc.cfg.accessTTL
    ensures ValidateJWT(svc, GenerateTokenPair(svc, userId, entropy, now).access, AccessType, t) == Success(userId)
  {
  }

  /** Type isolation: whatever the time, the access token never validates as a
      refresh token, nor the refresh token as an access token. */
  lemma IssuedTokensAreTypeIsolated(svc: Service, userId: string, entropy: Option<seq<Hex.Byte>>, now: int, t: int)
    requires entropy.Some? ==> |entropy.value| == 16
    requires Sound(svc.crypto)
    requires GenerateTokenPair(svc, userId, entropy, now).err.None?
    ensures ValidateJWT(svc, GenerateTokenPair(svc, userId, entropy, now).access, RefreshType, t).Failure?
    ensures ValidateJWT(svc, GenerateTokenPair(svc, userId, entropy, now).refresh, AccessType, t).Failure?
  {
  }

  /** Binding, positive half: an issued pair is accepted for rotation until
      the refresh token expires, as long as the nonce store (if any) answers. */
  lemma IssuedPairRotates(svc: Service, userId: string, entropy: Option<seq<Hex.Byte>>, now: int, t: int)
    requires entropy.Some? ==> |entropy.value| == 16
    requires Sound(svc.crypto)
    requires svc.nonces.Some? ==> svc.nonces.value.readable
    requires GenerateTokenPair(svc, userId, entropy, now).err.None?
    requires t < now + svc.cfg.refreshTTL
    ensures
      var r := GenerateTokenPair(svc, userId, entropy, now);
      ValidateRefreshToken(After(svc, r), r.refresh, r.access, t)
        == Success(RefreshClaims(svc.cfg, userId, HashHex(svc.crypto, r.access), Hex.Encode(entropy.value), now))
  {
    var r := GenerateTokenPair(svc, userId, entropy, now);
    var c := RefreshClaims(svc.cfg, userId, HashHex(svc.crypto, r.access), Hex.Encode(entropy.value), now);
    assert Carries(After(svc, r), r.refresh, c);
    assert BoundTo(After(svc, r), c, r.access);
    if svc.nonces.Some? {
      assert NonceStorage.Validate(r.nonces.value, c.nonce, r.refresh) == Success(true);
    }
  }

  /** Binding, negative half: the refresh token of an issued pair is accepted
      with another access token only if that token has the same SHA-256 digest
      as the one it was issued with. */
  lemma OtherAccessTokenRejected(svc: Service, userId: string, entropy: Option<seq<Hex.Byte>>, now: int,
                                 store: Option<NonceStorage.Store>, other: string, t: int)
    requires entropy.Some? ==> |entropy.value| == 16
    requires Sound(svc.crypto)
    requires GenerateTokenPair(svc, userId, entropy, now).err.None?
    requires ValidateRefreshToken(svc.(nonces := store), GenerateTokenPair(svc, userId, entropy, now).refresh, other, t).Success?
    ensures svc.crypto.sha256(other) == svc.crypto.sha256(GenerateTokenPair(svc, userId, entropy, now).access)
  {
    var r := GenerateTokenPair(svc, userId, entropy, now);
    var c := ValidateRefreshToken(svc.(nonces := store), r.refresh, other, t).value;
    assert Carries(svc, r.refresh, RefreshClaims(svc.cfg, userId, HashHex(svc.crypto, r.access), Hex.Encode(entropy.value), now));
    assert HashHex(svc.crypto, other) == c.tokenId == HashHex(svc.crypto, r.access);
    HashHexInjective(svc.crypto, other, r.access);
  }

  /** After a rotation the new pair is itself a valid pair: the new access
      token validates for the same user, and the new refresh token (bound to
      the NEW access token, with the nonce re-bound to it) rotates again. */
  lemma RotatedPairValidates(svc: Service, refresh: string, access: string, now: int, t: int)
    requires Sound(svc.crypto)
    requires RefreshTokens(svc, refresh, access, now).err.None?
    ensures
      var r := RefreshTokens(svc, refresh, access, now);
      t < now + svc.cfg.accessTTL ==>
        ValidateJWT(svc, r.access, AccessType, t)
          == Success(ValidateRefreshToken(svc, refresh, access, now).value.userId)
    ensures
      var r := RefreshTokens(svc, refresh, access, now);
      t < now + svc.cfg.refreshTTL ==> ValidateRefreshToken(After(svc, r), r.refresh, r.access, t).Success?
  {
    var r := RefreshTokens(svc, refresh, access, now);
    var prior := ValidateRefreshToken(svc, refresh, access, now).value;
    var c := RefreshClaims(svc.cfg, prior.userId, HashHex(svc.crypto, r.access), prior.nonce, now);
    assert Carries(After(svc, r), r.refresh, c);
    if t < now + svc.cfg.refreshTTL && svc.nonces.Some? {
      assert NonceStorage.Validate(r.nonces.value, c.nonce, r.refresh) == Success(true);
    }
  }

  /** Replay rejection: with a store, once (refresh, access) has been rotated
      into a DIFFERENT refresh token, presenting the old pair again fails at
      any later time, and so does rotating it. */
  lemma ReplayRejected(svc: Service, refresh: string, access: string, now: int, t: int)
    requires svc.nonces.Some?
    requires RefreshTokens(svc, refresh, access, now).err.None?
    requires RefreshTokens(svc, refresh, access, now).refresh != refresh
    ensures ValidateRefreshToken(After(svc, RefreshTokens(svc, refresh, access, now)), refresh, access, t).Failure?
    ensures RefreshTokens(After(svc, RefreshTokens(svc, refresh, access, now)), refresh, access, t).err.Some?
  {
    var r := RefreshTokens(svc, refresh, access, now);
    var c := ValidateRefreshToken(svc, refresh, access, now).value;
    var svc' := After(svc, r);
    assert NonceStorage.Validate(r.nonces.value, c.nonce, refresh) == Success(false);
    match ParseStrict(svc'.crypto, svc'.cfg.secretKey, refresh, t)
    case None =>
    case Some(c') =>
      assert c' == c;
  }

  /** The new refresh token differs from the old one unless the rotation
      happens in the second that gives both the same expiry: signing equal
      claims yields equal tokens, so replay rejection is conditional. */
  lemma RotationRenewsRefreshToken(svc: Service, refresh: string, access: string, now: int)
    requires Sound(svc.crypto)
    requires RefreshTokens(svc, refresh, access, now).err.None?
    requires ValidateRefreshToken(svc, refresh, access, now).value.expiresAt != now + svc.cfg.refreshTTL
    ensures RefreshTokens(svc, refresh, access, now).refresh != refresh
  {
    var r := RefreshTokens(svc, refresh, access, now);
    var prior := ValidateRefreshToken(svc, refresh, access, now).value;
    assert Carries(svc, refresh, prior);
    assert Carries(svc, r.refresh, RefreshClaims(svc.cfg, prior.userId, HashHex(svc.crypto, r.access), prior.nonce, now));
  }

  /** Without a store (the production wiring) nothing stops a replay: the old
      pair keeps validating after a rotation until the old token expires. */
  lemma NoStoreAllowsReplay(svc: Service, refresh: string, access: string, now: int, t: int)
    requires svc.nonces.None?
    requires RefreshTokens(svc, refresh, access, now).err.None?
    requires t < ValidateRefreshToken(svc, refresh, access, now).value.expiresAt
    ensures ValidateRefreshToken(After(svc, RefreshTokens(svc, refresh, access, now)), refresh, access, t).Success?
  {
    var c := ValidateRefreshToken(svc, refresh, access, now).value;
    assert Carries(svc, refresh, c);
  }

  /** A `Save` that fails after `Validate` succeeded fails the whole rotation:
      no tokens, the error reported, and the store left as it was. */
  lemma SaveFailureFailsRotation(svc: Service, refresh: string, access: string, now: int)
    requires svc.nonces.Some? && !svc.nonces.value.writable
    requires ValidateRefreshToken(svc, refresh, access, now).Success?
    requires
      var c := ValidateRefreshToken(svc, refresh, access, now).value;
      PairSigns(svc, c.userId, c.nonce, now)
    ensures RefreshTokens(svc, refresh, access, now) == Issued("", "", Some(StorageFailed), svc.nonces)
  {
  }

  /** The primitives never fail to sign. */
  ghost predicate SignsEverything(p: Primitives) {
    forall key, c :: p.sign(key, c).Some?
  }

  /** The end-to-end scenario: with a working store and signer, issuing at t0
      succeeds; rotating at a different second t1 before the refresh token
      expires succeeds; the new access token validates for the same user; both
      tokens changed; and presenting the original pair again fails. */
  lemma IssueRotateReplay(svc: Service, userId: string, entropy: seq<Hex.Byte>, t0: int, t1: int, t2: int)
    requires |entropy| == 16
    requires Sound(svc.crypto) && SignsEverything(svc.crypto)
    requires svc.nonces.Some? && svc.nonces.value.readable && svc.nonces.value.writable
    requires svc.cfg.accessTTL > 0
    requires t0 != t1 && t1 < t0 + svc.cfg.refreshTTL
    ensures GenerateTokenPair(svc, userId, Some(entropy), t0).err.None?
    ensures
      var p := GenerateTokenPair(svc, userId, Some(entropy), t0);
      var q := RefreshTokens(After(svc, p), p.refresh, p.access, t1);
      && q.err.None?
      && ValidateJWT(svc, q.access, AccessType, t1) == Success(userId)
      && q.access != p.access
      && q.refresh != p.refresh
      && RefreshTokens(After(svc, q), p.refresh, p.access, t2).err.Some?
  {
    var p := GenerateTokenPair(svc, userId, Some(entropy), t0);
    var svc1 := After(svc, p);
    IssuedPairRotates(svc, userId, Some(entropy), t0, t1);
    var c := RefreshClaims(svc.cfg, userId, HashHex(svc.crypto, p.access), Hex.Encode(entropy), t0);
    assert ValidateRefreshToken(svc1, p.refresh, p.access, t1) == Success(c);
    assert PairSigns(svc1, c.userId, c.nonce, t1);
    assert CanSave(svc1.nonces);
    var q := RefreshTokens(svc1, p.refresh, p.access, t1);
    assert Carries(svc, p.access, AccessClaims(svc.cfg, userId, t0));
    assert Carries(svc, q.access, AccessClaims(svc.cfg, userId, t1));
    RotationRenewsRefreshToken(svc1, p.refresh, p.access, t1);
    RotatedPairValidates(svc1, p.refresh, p.access, t1, t1);
    ReplayRejected(svc1, p.refresh, p.access, t1, t2);
  }
}

=== FILE: user_entity.dfy ===
/**
 * Input validation of `internal/entity/user.go`: the e-mail pattern
 * `^[a-z0-9._%+\-]+@[a-z0-9.\-]+\.[a-z]{2,4}$`, login validation and
 * registration validation, each returning the first failed check.
 */
module UserEntity {
  import opened Wrappers
  import Utf8
  import Decimal

  datatype User = User(id: string, email: string, password: string, passwordHash: string)

  datatype UserRegister = UserRegister(email: string, password: string, code: string)

  datatype ValidationError =
    | EmailRequired
    | InvalidEmailFormat
    | PasswordRequired
    | PasswordTooShort
    | CodeRequired
  {
    function Message(): string {
      match this
      case EmailRequired => "email is required"
      case InvalidEmailFormat => "invalid email format"
      case PasswordRequired => "password is required"
      case PasswordTooShort => "password must be at least 8 characters"
      case CodeRequired => "code is required"
    }
  }

  predicate IsLowerLetter(c: char) { 'a' <= c <= 'z' }

  /** `[a-z0-9._%+\-]` */
  predicate IsLocalChar(c: char) {
    IsLowerLetter(c) || Decimal.IsDigit(c) || c == '.' || c == '_' || c == '%' || c == '+' || c == '-'
  }

  /** `[a-z0-9.\-]` */
  predicate IsDomainChar(c: char) {
    IsLowerLetter(c) || Decimal.IsDigit(c) || c == '.' || c == '-'
  }

  /** `[a-z0-9._%+\-]+` */
  predicate IsLocalPart(s: string) {
    |s| >= 1 && forall i :: 0 <= i < |s| ==> IsLocalChar(s[i])
  }

  /** `[a-z0-9.\-]+` */
  predicate IsDomainPart(s: string) {
    |s| >= 1 && forall i :: 0 <= i < |s| ==> IsDomainChar(s[i])
  }

  /** `[a-z]{2,4}` */
  predicate IsTopLevel(s: string) {
    2 <= |s| <= 4 && forall i :: 0 <= i < |s| ==> IsLowerLetter(s[i])
  }

  /** The language of the anchored pattern: some `@` and some later `.` cut
      the string into a local part, a domain part and a top-level label. */
  ghost predicate MatchesEmailPattern(s: string) {
    exists at, dot :: 0 <= at < dot < |s| && s[at] == '@' && s[dot] == '.'
      && IsLocalPart(s[..at]) && IsDomainPart(s[at + 1..dot]) && IsTopLevel(s[dot + 1..])
  }

  function FirstIndexOf(s: string, c: char): (r: Option<nat>)
    ensures r.Some? ==> r.value < |s| && s[r.value] == c && forall k :: 0 <= k < r.value ==> s[k] != c
    ensures r.None? ==> forall k :: 0 <= k < |s| ==> s[k] != c
  {
    if |s| == 0 then None
    else if s[0] == c then Some(0)
    else match FirstIndexOf(s[1..], c)
      case None => None
      case Some(i) => Some(i + 1)
  }

  function LastIndexOf(s: string, c: char): (r: Option<nat>)
    ensures r.Some? ==> r.value < |s| && s[r.value] == c && forall k :: r.value < k < |s| ==> s[k] != c
    ensures r.None? ==> forall k :: 0 <= k < |s| ==> s[k] != c
  {
    if |s| == 0 then None
    else if s[|s| - 1] == c then Some(|s| - 1)
    else LastIndexOf(s[..|s| - 1], c)
  }

  /** Deciding the pattern: the `@` must be the first one (the local part has
      none) and the `.` the last one (the top-level label has none). */
  predicate MatchEmail(s: string) {
    var at := FirstIndexOf(s, '@');
    var dot := LastIndexOf(s, '.');
    && at.Some? && dot.Some? && at.value < dot.value
    && IsLocalPart(s[..at.value]) && IsDomainPart(s[at.value + 1..dot.value]) && IsTopLevel(s[dot.value + 1..])
  }

  lemma MatchEmailDecidesPattern(s: string)
    ensures MatchEmail(s) <==> MatchesEmailPattern(s)
  {
    if MatchesEmailPattern(s) {
      PatternIsMatched(s);
    }
    if MatchEmail(s) {
      var at, dot := FirstIndexOf(s, '@').value, LastIndexOf(s, '.').value;
      assert 0 <= at < dot < |s| && s[at] == '@' && s[dot] == '.';
    }
  }

  lemma PatternIsMatched(s: string)
    requires MatchesEmailPattern(s)
    ensures MatchEmail(s)
  {
    var at, dot :| 0 <= at < dot < |s| && s[at] == '@' && s[dot] == '.'
      && IsLocalPart(s[..at]) && IsDomainPart(s[at + 1..dot]) && IsTopLevel(s[dot + 1..]);
    forall k | 0 <= k < at ensures s[k] != '@' {
      assert IsLocalChar(s[..at][k]);
    }
    forall k | dot < k < |s| ensures s[k] != '.' {
      assert IsLowerLetter(s[dot + 1..][k - dot - 1]);
    }
    FirstIndexIs(s, '@', at);
    LastIndexIs(s, '.', dot);
  }

  lemma FirstIndexIs(s: string, c: char, i: nat)
    requires i < |s| && s[i] == c && forall k :: 0 <= k < i ==> s[k] != c
    ensures FirstIndexOf(s, c) == Some(i)
  {
  }

  lemma LastIndexIs(s: string, c: char, i: nat)
    requires i < |s| && s[i] == c && forall k :: i < k < |s| ==> s[k] != c
    ensures LastIndexOf(s, c) == Some(i)
  {
  }

  /** `User.ValidateEmail`. */
  function ValidateEmail(email: string): (r: Option<ValidationError>)
    ensures email == "" ==> r == Some(EmailRequired)
    ensures email != "" ==> (r.None? <==> MatchesEmailPattern(email))
    ensures email != "" && !MatchesEmailPattern(email) ==> r == Some(InvalidEmailFormat)
    ensures r.Some? ==> r.value == EmailRequired || r.value == InvalidEmailFormat
  {
    if email == "" then Some(EmailRequired)
    else
      MatchEmailDecidesPattern(email);
      if !MatchEmail(email) then Some(InvalidEmailFormat) else None
  }

  /** Upper-case letters are outside every character class of the pattern. */
  lemma UppercaseEmailRejected(email: string, k: nat)
    requires k < |email| && 'A' <= email[k] <= 'Z'
    ensures ValidateEmail(email) == Some(InvalidEmailFormat)
  {
  }

  /** `User.ValidateLogin`: e-mail errors first, then an empty password. */
  function ValidateLogin(u: User): (r: Option<ValidationError>)
    ensures ValidateEmail(u.email).Some? ==> r == ValidateEmail(u.email)
    ensures ValidateEmail(u.email).None? ==> (r.None? <==> u.password != "")
    ensures ValidateEmail(u.email).None? && u.password == "" ==> r == Some(PasswordRequired)
    ensures r.Some? ==> r.value in {EmailRequired, InvalidEmailFormat, PasswordRequired}
  {
    match ValidateEmail(u.email)
    case Some(e) => Some(e)
    case None => if u.password == "" then Some(PasswordRequired) else None
  }

  /** `UserRegister.Validate`: the checks in order, first failure wins. The
      length is Go's `len`, which counts UTF-8 bytes. */
  function ValidateRegister(u: UserRegister): (r: Option<ValidationError>)
    ensures r == Some(EmailRequired) <==> u.email == ""
    ensures r == Some(InvalidEmailFormat) <==> u.email != "" && !MatchesEmailPattern(u.email)
    ensures r == Some(PasswordRequired) <==> ValidateEmail(u.email).None? && u.password == ""
    ensures r == Some(PasswordTooShort) <==>
      ValidateEmail(u.email).None? && u.password != "" && Utf8.ByteLength(u.password) < 8
    ensures r == Some(CodeRequired) <==>
      ValidateEmail(u.email).None? && Utf8.ByteLength(u.password) >= 8 && u.code == ""
    ensures r.None? <==> MatchesEmailPattern(u.email) && Utf8.ByteLength(u.password) >= 8 && u.code != ""
  {
    match ValidateEmail(u.email)
    case Some(e) => Some(e)
    case None =>
      if u.password == "" then Some(PasswordRequired)
      else if Utf8.ByteLength(u.password) < 8 then Some(PasswordTooShort)
      else if u.code == "" then Some(CodeRequired)
      else None
  }

  /** The password bound is 8 bytes and inclusive: eight ASCII characters pass. */
  lemma EightAsciiPasswordAccepted(email: string, code: string)
    requires MatchesEmailPattern(email) && code != ""
    ensures ValidateRegister(UserRegister(email, Utf8.Repeat('1', 8), code)).None?
  {
    Utf8.RepeatByteLength('1', 8);
  }

  /** Seven ASCII characters are one byte short. */
  lemma SevenAsciiPasswordRejected(email: string, code: string)
    requires MatchesEmailPattern(email) && code != ""
    ensures ValidateRegister(UserRegister(email, Utf8.Repeat('1', 7), code)) == Some(PasswordTooShort)
  {
    MatchEmailDecidesPattern(email);
    Utf8.RepeatByteLength('1', 7);
  }

  /** Length is counted in bytes: four two-byte characters already pass. */
  lemma FourTwoBytePasswordAccepted(email: string, code: string)
    requires MatchesEmailPattern(email) && code != ""
    ensures ValidateRegister(UserRegister(email, "éééé", code)).None?
  {
    assert "éééé" == Utf8.Repeat('é', 4);
    Utf8.RepeatByteLength('é', 4);
  }
}

=== FILE: user_service.dfy ===
/**
 * The registration-code flow of `internal/services/user.go` over an abstract
 * store: registered accounts (Postgres), registration codes and send locks
 * (Redis), and the outgoing mail queue (RabbitMQ). Which backend calls fail
 * is the parameter `faults`; the random draw and the bcrypt hash are
 * parameters too.
 */
module UserService {
  import opened Wrappers
  import Decimal
  import UserEntity

  /** The backend calls the two operations make. */
  datatype Step =
    | CheckRegistered  // IsEmailRegistered
    | ReadCode         // GetRegisterCode
    | ReadLock         // GetRegisterCodeEmailLock
    | WriteLock        // SetRegisterCodeEmailLock
    | WriteCode        // SetRegisterCode
    | Publish          // producer.SendMessage
    | HashPassword     // bcrypt
    | CreateUser       // Create

  /** A queued message: the queue name and the JSON map's two entries. */
  datatype Message = Message(queue: string, email: string, code: string)

  datatype Account = Account(id: string, passwordHash: string)

  /** Live accounts by e-mail, codes by e-mail, locked e-mails, sent messages. */
  datatype Store = Store(
    accounts: map<string, Account>,
    codes: map<string, string>,
    locks: set<string>,
    outbox: seq<Message>)

  datatype ServiceError =
    | InvalidCode             // "invalid code"
    | HashingFailed           // "error hashing password"
    | RegistrationCheckFailed // "error checking email registration"
    | EmailAlreadyRegistered  // "email is already registered"
    | CreateFailed            // "error creating user"
    | CodeAlreadySent         // "code is already sent, please wait 5 minutes"
    | BackendFailed(step: Step) // a backend error passed through unchanged

  const VerificationQueue: string := "mail_verification"

  /** `fmt.Sprintf("%06d", code)`. */
  function FormatCode(code: nat): (s: string)
    ensures |s| >= 6 && Decimal.AllDigits(s) && Decimal.Value(s) == code
    ensures 100000 <= code <= 999999 ==> |s| == 6 && s[0] != '0'
  {
    SixDigitRange(code);
    Decimal.ZeroPad(code, 6)
  }

  lemma SixDigitRange(code: nat)
    ensures 100000 <= code <= 999999 ==> |Decimal.Digits(code)| == 6
  {
    if 100000 <= code <= 999999 {
      Decimal.DigitsLength(code, 5);
    }
  }

  /** `generateCode`: `draw` is `rand.Intn(900000)`. */
  function GenerateCode(draw: nat): (s: string)
    requires draw < 900000
    ensures |s| == 6 && Decimal.AllDigits(s) && s[0] != '0'
    ensures Decimal.Value(s) == draw + 100000
  {
    FormatCode(draw + 100000)
  }

  /** The stored code for `email` could be read and equals `code`. */
  predicate CodeMatches(st: Store, faults: set<Step>, email: string, code: string) {
    ReadCode !in faults && email in st.codes && st.codes[email] == code
  }

  /** `Register`: check the code, hash the password, check the e-mail is
      free, create the account. `newId` is the id the database assigns. */
  function Register(st: Store, faults: set<Step>, user: UserEntity.User, code: string,
                    passwordHash: string, newId: string): (r: (Result<string, ServiceError>, Store))
    // a missing or different code is rejected first, whatever else holds
    ensures r.0 == Failure(InvalidCode) <==> !CodeMatches(st, faults, user.email, code)
    ensures r.0.Failure? ==> r.1 == st
    // an e-mail that is already registered never reaches Create
    ensures user.email in st.accounts ==> r.0.Failure? && r.1 == st
    // past a matching code, each later step's error arises exactly when it is the first to fail
    ensures r.0 == Failure(HashingFailed) <==> CodeMatches(st, faults, user.email, code) && HashPassword in faults
    ensures r.0 == Failure(RegistrationCheckFailed) <==>
      CodeMatches(st, faults, user.email, code) && HashPassword !in faults && CheckRegistered in faults
    ensures r.0 == Failure(EmailAlreadyRegistered) <==>
      && CodeMatches(st, faults, user.email, code) && HashPassword !in faults && CheckRegistered !in faults
      && user.email in st.accounts
    ensures r.0 == Failure(CreateFailed) <==>
      && CodeMatches(st, faults, user.email, code) && HashPassword !in faults && CheckRegistered !in faults
      && user.email !in st.accounts && CreateUser in faults
    ensures r.0.Success? <==>
      && CodeMatches(st, faults, user.email, code) && HashPassword !in faults && CheckRegistered !in faults
      && user.email !in st.accounts && CreateUser !in faults
    ensures r.0.Success? ==>
      && r.0.value == newId
      && user.email !in st.accounts && user.email in st.codes && st.codes[user.email] == code
      && r.1.accounts.Keys == st.accounts.Keys + {user.email}
      && r.1.accounts[user.email] == Account(newId, passwordHash)
      && (forall e :: e in st.accounts ==> r.1.accounts[e] == st.accounts[e])
      && r.1.codes == st.codes && r.1.locks == st.locks && r.1.outbox == st.outbox
  {
    if ReadCode in faults || user.email !in st.codes then (Failure(InvalidCode), st)
    else if st.codes[user.email] != code then (Failure(InvalidCode), st)
    else if HashPassword in faults then (Failure(HashingFailed), st)
    else if CheckRegistered in faults then (Failure(RegistrationCheckFailed), st)
    else if user.email in st.accounts then (Failure(EmailAlreadyRegistered), st)
    else if CreateUser in faults then (Failure(CreateFailed), st)
    else (Success(newId), st.(accounts := st.accounts[user.email := Account(newId, passwordHash)]))
  }

  /** `EmailVerification`: refuse registered e-mails; when `sendCode`, take
      the send lock, store a fresh code and queue a mail, stopping at the
      first failing step with the effects of the steps before it kept. */
  function EmailVerification(st: Store, faults: set<Step>, email: string, sendCode: bool, draw: nat)
    : (r: (Option<ServiceError>, Store))
    requires draw < 900000
    ensures CheckRegistered in faults ==> r == (Some(RegistrationCheckFailed), st)
    ensures CheckRegistered !in faults && email in st.accounts ==> r == (Some(EmailAlreadyRegistered), st)
    ensures email in st.accounts ==> r.0.Some? && r.1 == st
    ensures !sendCode ==> r.1 == st
    ensures !sendCode && CheckRegistered !in faults && email !in st.accounts ==> r.0.None?
    // a held lock (that could be read) stops the flow before anything changes
    ensures (&& sendCode && CheckRegistered !in faults && email !in st.accounts
             && ReadLock !in faults && email in st.locks) ==> r == (Some(CodeAlreadySent), st)
    // whatever happens, accounts are untouched and nothing is removed
    ensures r.1.accounts == st.accounts && st.locks <= r.1.locks && st.outbox <= r.1.outbox
    ensures forall e :: e != email ==> (e in r.1.codes <==> e in st.codes) && (e in st.codes ==> r.1.codes[e] == st.codes[e])
    // success with sendCode: lock held, code stored, one mail with that e-mail and code
    ensures sendCode && r.0.None? ==>
      && email in r.1.locks
      && email in r.1.codes && r.1.codes[email] == GenerateCode(draw)
      && r.1.outbox == st.outbox + [Message(VerificationQueue, email, GenerateCode(draw))]
    // and nothing else changes: only this e-mail's lock, code and mail
    ensures sendCode && r.0.None? ==>
      r.1 == st.(locks := st.locks + {email}, codes := st.codes[email := GenerateCode(draw)],
                 outbox := st.outbox + [Message(VerificationQueue, email, GenerateCode(draw))])
    // a message is queued only on success
    ensures |r.1.outbox| > |st.outbox| ==> r.0.None?
    // with no lock held (or none readable), the first failing step's error is returned,
    // and the flow succeeds when no step fails
    ensures sendCode && CheckRegistered !in faults && email !in st.accounts
            && (ReadLock in faults || email !in st.locks) ==>
      && (WriteLock in faults ==> r.0 == Some(BackendFailed(WriteLock)))
      && (WriteLock !in faults && WriteCode in faults ==> r.0 == Some(BackendFailed(WriteCode)))
      && (WriteLock !in faults && WriteCode !in faults && Publish in faults ==> r.0 == Some(BackendFailed(Publish)))
      && (WriteLock !in faults && WriteCode !in faults && Publish !in faults ==> r.0.None?)
    ensures r.0 == Some(BackendFailed(WriteLock)) ==> r.1 == st
    ensures r.0 == Some(BackendFailed(WriteCode)) ==> r.1 == st.(locks := st.locks + {email})
    ensures r.0 == Some(BackendFailed(Publish)) ==>
      r.1 == st.(locks := st.locks + {email}, codes := st.codes[email := GenerateCode(draw)])
  {
    if CheckRegistered in faults then (Some(RegistrationCheckFailed), st)
    else if email in st.accounts then (Some(EmailAlreadyRegistered), st)
    else if !sendCode then (None, st)
    // a failed lock read reports the lock as free
    else if ReadLock !in faults && email in st.locks then (Some(CodeAlreadySent), st)
    else if WriteLock in faults then (Some(BackendFailed(WriteLock)), st)
    else
      var locked := st.(locks := st.locks + {email});
      var code := GenerateCode(draw);
      if WriteCode in faults then (Some(BackendFailed(WriteCode)), locked)
      else
        var stored := locked.(codes := locked.codes[email := code]);
        if Publish in faults then (Some(BackendFailed(Publish)), stored)
        else (None, stored.(outbox := stored.outbox + [Message(VerificationQueue, email, code)]))
  }

  /** The two operations together: a code that EmailVerification stored lets
      Register create the account, after which both refuse the e-mail. */
  lemma VerifyThenRegister(st: Store, email: string, draw: nat, password: string,
                           passwordHash: string, newId: string, faults: set<Step>)
    requires draw < 900000
    requires email !in st.accounts
    requires faults == {}
    ensures
      var (e1, st1) := EmailVerification(st, faults, email, true, draw);
      e1.None? ==>
        var (r2, st2) := Register(st1, faults, UserEntity.User("", email, password, ""), GenerateCode(draw),
                                  passwordHash, newId);
        && r2 == Success(newId)
        && email in st2.accounts
        && EmailVerification(st2, faults, email, true, draw).0 == Some(EmailAlreadyRegistered)
        && Register(st2, faults, UserEntity.User("", email, password, ""), GenerateCode(draw),
                    passwordHash, newId).0 == Failure(EmailAlreadyRegistered)
  {
  }
}

=== FILE: utf8.dfy ===
/**
 * Byte length of a string. Go's `len` on a `string` counts UTF-8 bytes, while
 * the model's strings are sequences of Unicode scalar values; `ByteLength` is
 * the number of bytes their UTF-8 encoding takes.
 */
module Utf8 {

  /** Bytes UTF-8 uses for one scalar value. */
  function Width(c: char): (w: nat)
    ensures 1 <= w <= 4
    ensures w == 1 <==> c as int < 0x80
  {
    if c as int < 0x80 then 1
    else if c as int < 0x800 then 2
    else if c as int < 0x1_0000 then 3
    else 4
  }

  function ByteLength(s: string): (n: nat)
    ensures |s| <= n <= 4 * |s|
  {
    if |s| == 0 then 0 else Width(s[0]) + ByteLength(s[1..])
  }

  predicate IsAscii(s: string) {
    forall i :: 0 <= i < |s| ==> s[i] as int < 0x80
  }

  lemma {:induction false} AsciiByteLength(s: string)
    requires IsAscii(s)
    ensures ByteLength(s) == |s|
  {
    if |s| > 0 {
      assert IsAscii(s[1..]);
      AsciiByteLength(s[1..]);
    }
  }

  /** A string of `n` copies of one character. */
  function Repeat(c: char, n: nat): (s: string)
    ensures |s| == n
    ensures forall i :: 0 <= i < n ==> s[i] == c
  {
    seq(n, _ => c)
  }

  lemma {:induction false} RepeatByteLength(c: char, n: nat)
    ensures ByteLength(Repeat(c, n)) == n * Width(c)
  {
    if n > 0 {
      assert Repeat(c, n)[1..] == Repeat(c, n - 1);
      RepeatByteLength(c, n - 1);
    }
  }
}

=== FILE: wrappers.dfy ===
/** Failure-carrying wrappers shared by every module of the model. */
module Wrappers {

  /** A value that may be absent: Go's nil pointer, nil interface or "not found". */
  datatype Option<+T> = None | Some(value: T)

  /** A value or the error that replaced it: Go's `(T, error)` pair. */
  datatype Result<+T, +E> = Success(value: T) | Failure(error: E)
}
